=== FILE: README.md ===
# Upfound backend: vote ledger, comment ledger and product feed in Dafny

This project models the sequential logic of the Upfound backend, an Express/Mongoose service where
users submit products, browse a sorted and filtered feed, upvote products and comment on them.
The document store is a single immutable value, `Records.Store`. It holds four collections in
natural (insertion) order: users, products, upvote records and comments. Every controller
becomes a pure function from a store and a request to a reply, plus the new store for writes.
Error replies carry the status and message the controller sends (`Records.Failure`).

The central property is the upvote ledger's invariant. Every stored product's `upvotes` counter
equals the number of upvote records on it, and no (user, product) pair has two records.
`toggleVote` preserves it (`VoteLedger`), and so does every other write. Nothing in the store
makes the pair unique, so votes are a `seq` and "at most one" is proved, not assumed. The
comment counter is exact after adds. Removal never decrements it, so across all operations only
"counter ≥ records" holds (`CommentLedger`). The feed's validation, filtering, ordering and
paging (`Feed`) are stated as contracts and proved; where the feed differs from the controller
is listed under "Left out". The user endpoints (`Users`) report totals that are
counts of records; the user schema has no stored vote counter.

Modules: `Wrappers` (Option/Result), `Seqs` (filter, first match, delete-first, skip/limit
window, stable descending sort), `Records` (documents, queries, `$inc`, store invariants),
`ProductSchema` (defaults and save validation), `Invariants` (`Consistent`, `Settled`),
`VoteLedger`, `CommentLedger`, `Feed`, `Catalog` (create/delete product), `Users`.

Credential and token libraries are function parameters: `verify` (token to optional user id),
`sign` (user id and issue time to token), `hash` and `matches` (password hashing and checking). Blob-store
uploads become the URLs they return. Store-generated ids, `randomID` values and timestamps are
also parameters.

## Model

| member | source | states |
|---|---|---|
| `VoteLedger.ToggleVote` | src/controllers/product.controller.js:182-227 | An unknown caller gets 404 "User not found" and the store is unchanged. Otherwise the reply is "removed" exactly when a vote for the pair existed. Removal deletes exactly one record, and it belongs to the pair. Recording adds exactly the one new record. The product's `upvotes` moves by −1 or +1 (nothing changes for an unknown product id). Users and comments are unchanged. |
| `VoteLedger.ToggleVoteTallies` | src/controllers/product.controller.js:187-223 | A successful toggle moves by exactly ±1 the vote count of the toggled product, of the caller and of the pair. No other product's, user's or pair's count changes. |
| `VoteLedger.ToggleVotePreservesConsistency` | src/controllers/product.controller.js:187-223 | On a consistent store (unique product ids and user keys, products that pass the schema, `upvotes` equal to each product's vote count, at most one vote per pair, comment counters covering the records), the toggle keeps the store consistent. No counter drops below the schema minimum of 0, and exact comment counters stay exact. |
| `VoteLedger.ToggleTwiceRestores` | src/controllers/product.controller.js:182-227 | On a consistent store, toggling the same pair twice restores every product, every user and every vote count. When the first toggle recorded the vote, the exact vote records come back too. |
| `Records.Inc` | src/controllers/product.controller.js:194-198 | `$inc` by id moves the counter of the product with that id and leaves every other product and field alone. With no such product nothing changes. |
| `Records.IncInverse` | src/controllers/product.controller.js:194-215 | An increment followed by the opposite increment restores the products. |
| `CommentLedger.AddComment` | src/controllers/product.controller.js:229-267 | An empty product id, content or author id gets 400. An unknown product gets 404 "Product not found" and an unknown author external id gets 404 "Author not found". Every failure leaves the store unchanged. It succeeds exactly when all three inputs are present and both look-ups succeed. It then stores exactly one comment by the resolved author and moves that product's `comments` by +1. |
| `CommentLedger.AddCommentPreservesConsistency` | src/controllers/product.controller.js:243-255 | Adding a comment keeps the store consistent and keeps exact comment counters exact. |
| `CommentLedger.ListComments` | src/controllers/product.controller.js:269-292 | The page holds only that product's stored comments, newest first. It is at most `limit` long (0 means no limit). An absent `limit` is 10 and an absent `offset` is 0, so a request without them gets at most 10 comments from the newest on. It is exactly the window that skips `offset` comments of the newest-first list and keeps `limit` of them. `total` counts all the product's comments, whatever the window. |
| `CommentLedger.AddedCommentIsListed` | src/controllers/product.controller.js:243-288 | A comment stored by `addComment` appears in the product's unpaged comment listing, and the listing's `total` grows by exactly one. |
| `CommentLedger.RemoveComment` | src/controllers/product.controller.js:294-309 | An unknown comment id gets 404 and changes nothing. Otherwise exactly that one comment is deleted, no product changes, and the reply is 500 "Delete comment failed". |
| `CommentLedger.RemoveCommentPreservesConsistency` | src/controllers/product.controller.js:297-303 | On a consistent store, a removal keeps the store consistent; in particular every product's `comments` is still at least its number of comment records. |
| `CommentLedger.RemoveCommentLeavesCounterStale` | src/controllers/product.controller.js:300-303 | Start from a store whose one product has an exact count of 1 comment. Removing that comment leaves the counter at 1 with no comment left, and the reply is a 500. |
| `CommentLedger.RemoveCommentDecrementing` | src/controllers/product.controller.js:294-309 | The corrected removal deletes exactly the one comment and moves its product's `comments` by −1. |
| `CommentLedger.RemoveCommentDecrementingPreservesSettled` | src/controllers/product.controller.js:300-303 | On a consistent store whose comment counters are exact, the corrected removal keeps the store consistent and the counters exact. |
| `Feed.ParseSort` | src/controllers/product.controller.js:17-24 | "all", "latest" and "trending" each name one order. Every other value is rejected. |
| `Feed.Matching` | src/controllers/product.controller.js:26-29 | Category "all" keeps every product. Any other category keeps exactly the products whose category equals it ignoring letter case. |
| `Feed.ListProducts` | src/controllers/product.controller.js:10-45 | A non-numeric limit or offset gets 400 "Invalid limit or offset". An unknown sort gets 400 "Invalid sort option". Any other query succeeds. The page is the ordered, filtered products, skipped by `offset` and cut to `limit` (defaults 10 and 0). `totalCount` is the number of matching products. |
| `Feed.ListProductsPageMembers` | src/controllers/product.controller.js:26-37 | Every product on a page is stored and in the requested category. A page is never longer than the requested non-zero limit, or 10 when no limit is given. |
| `Feed.ListProductsPageOrder` | src/controllers/product.controller.js:17-37 | "latest" pages have non-increasing `createdAt` and "trending" pages non-increasing `upvotes`. An "all" page is a window of the matching products in store order. |
| `Feed.TotalCountIgnoresPaging` | src/controllers/product.controller.js:32-41 | `totalCount` is the same for any limit, offset and sort with the same category. |
| `Feed.CategoryIgnoresCase` | src/controllers/product.controller.js:26-29 | Two category names that differ only in letter case produce identical replies, for example "Global" and "global". Both names must differ from the literal "all", which the code compares case-sensitively and treats as no filter. |
| `Feed.Detail` | src/controllers/product.controller.js:61-75 | An unknown product gets 404. A stored product is returned with `isUpvoted` true exactly when the viewer is known and has a vote on it. |
| `Feed.GetProductById` | src/controllers/product.controller.js:48-79 | A presented token that fails verification gets 500, before the product is looked up. Otherwise an unknown product gets 404, and a stored product succeeds. With no token `isUpvoted` is false. With a verified token it is true exactly when the decoded user has a vote on the product. |
| `Feed.InvalidTokenAnswersServerError` | src/controllers/product.controller.js:50-78 | For a stored product and a token that fails verification, the code as written answers 500. The corrected reading answers exactly what a request without a token gets. |
| `Feed.GetProductByIdAnonymousFallback` | src/controllers/product.controller.js:48-79 | The corrected reading: an unknown product gets 404 and a stored product always succeeds. A viewer without a verified id never sees `isUpvoted` set. For a verified viewer it is true exactly when that user has a vote on the product. |
| `Catalog.CreateProduct` | src/controllers/product.controller.js:82-149 | A missing text field gets 400, a missing logo gets 400 and an unknown caller gets 404. A product that fails schema validation on save gets 500; this is the case for zero or more than five media URLs. Every failure leaves the store unchanged. A success appends one product owned by the caller. It holds the new id, the request's name, tagline, description, website and category, the uploaded URLs, both counters at 0 and the given creation time. |
| `Catalog.CreateWithoutMediaFails` | src/controllers/product.controller.js:113-143 | A request with every text field, a logo and a known caller, but no media files, still fails with 500 and stores nothing. |
| `Catalog.CreateProductPreservesConsistency` | src/controllers/product.controller.js:132-143 | Creating a product under a fresh id keeps the store consistent and keeps exact comment counters exact. |
| `Catalog.DeleteProduct` | src/controllers/product.controller.js:166-179 | An unknown product gets 404. A caller who is not the submitter gets 403 "Not authorized" and the store is unchanged. Otherwise exactly that product is removed, and its votes and comments, and the users, are kept. |
| `Catalog.DeleteProductPreservesConsistency` | src/controllers/product.controller.js:166-179 | Deleting a product keeps the store consistent, and no product with that id remains. |
| `ProductSchema.NewProduct` | src/models/product.model.js:3-40 | A new product document gets category "Global" when none is given, counters of 0 and the given creation time. It passes validation exactly when name and tagline are non-empty, there are 1 to 5 media URLs and a submitter is set. |
| `Users.GetUserById` | src/controllers/user.controller.js:9-28 | An empty id gets 400 and an unknown external id gets 404. Otherwise the reply is the user's stored fields without the password. `totalSubmissions` is the number of products the user submitted and `totalVotes` the number of the user's upvote records. |
| `Users.ToggleMovesTotalVotes` | src/controllers/user.controller.js:19-24 | After the user toggles a vote, the reported `totalVotes` is one higher when the vote was recorded and one lower when it was removed. |
| `Users.CreateAddsSubmission` | src/controllers/user.controller.js:19-21 | A product created by the user raises the reported `totalSubmissions` by one. |
| `Users.DeleteRemovesSubmission` | src/controllers/user.controller.js:19-21 | Deleting one of the user's products lowers the reported `totalSubmissions` by one. |
| `Users.RegisterUser` | src/controllers/user.controller.js:31-60 | A registered email gets 400 and nothing changes. A save rejected for an empty required field or a taken unique key gets 500 and nothing changes. Otherwise exactly one user is added, the only one with that email. It holds the new id, the name, the email, the random `userId`, the password hash and the creation time, and the reply holds a token for the new id issued at the registration time, and the user without the password. |
| `Users.RegisterThenLogin` | src/controllers/user.controller.js:63-82 | After a successful registration, logging in at any later time with the same email and password succeeds. It returns the registered user without the password and a token for the new id issued at the login time. This assumes the password check accepts a password against its own hash. |
| `Users.RegisterPreservesConsistency` | src/controllers/user.controller.js:34-51 | Registration keeps `_id`, `userId` and `email` unique and the rest of the store consistent. |
| `Users.LoginUser` | src/controllers/user.controller.js:63-82 | An unknown email gets 404 and a failed password check gets 401. A known email with a matching password always succeeds. The reply is a token for that user's id issued at the login time, and the user without the password. |
| `Users.GetSubmissionsByUser` | src/controllers/user.controller.js:84-107 | An unknown external id gets 404, and a known one always succeeds. The page holds only the user's stored products, in store order, skipping `(page-1)*limit` and at most `limit` long. An absent `page` is 1 and an absent `limit` is 10, so a request without them gets at most 10 products from the first on. `total` counts all the user's products. |
| `Users.SubmissionsPaging` | src/controllers/user.controller.js:92-96 | Page `page` holds exactly the submissions at positions `(page-1)*limit` to `page*limit`, so consecutive pages cover the list without gaps. |
| `Users.SubmissionsTotalIgnoresPage` | src/controllers/user.controller.js:97-103 | `total` is the same whichever page and limit are asked for. |
| `Users.GetVotedProductsByUser` | src/controllers/user.controller.js:109-131 | An unknown external id gets 404, and a known one always succeeds. The page holds the user's upvote records, paged like the submissions with the same defaults, each with its product (none once deleted). `total` counts all the user's upvote records. |
| `Users.VotedTotalMatchesProfile` | src/controllers/user.controller.js:117-127 | The voted-products `total` equals the profile's `totalVotes`. |
| `Feed.Ordered` | src/controllers/product.controller.js:17-21 | "latest" puts the newest products first and "trending" the most upvoted first. "all" keeps store order. Every order is a permutation of the matching products. |
| `Records.HasVoteCount` | src/controllers/product.controller.js:187-190 | `Upvote.exists` for a (user, product) pair holds exactly when that pair has at least one upvote record. |
| `Seqs.RemoveFirst` | src/controllers/product.controller.js:193 | `deleteOne` removes exactly one record, the first match, so the collection loses one element and that element's multiset count drops by one. With no match nothing changes. |
| `CommentLedger.ListCommentsTotalIgnoresPage` | src/controllers/product.controller.js:284-288 | The comment `total` is the same whichever `limit` and `offset` are asked for. |
| `Seqs.Window` | src/controllers/product.controller.js:36-37 | A skip-then-limit window is the contiguous run starting at the offset. It is `limit` long when enough records remain, empty past the end, and unbounded for limit 0. |
| `Seqs.WindowLocates` | src/controllers/product.controller.js:36-37 | Every element from the offset on, up to the limit, is on the window: element `i` of the list is element `i - offset` of the window. |
| `Seqs.SortDesc` | src/controllers/product.controller.js:17-21 | Sorting by a key returns a permutation of its input in non-increasing key order. |

## Left out

- HTTP wiring is not modelled: routing, CORS, the database connection, configuration and multer. Each endpoint is modelled as the function of its controller. `removeComment` is modelled even though no route reaches it.
- The `isAuthenticated` middleware is not modelled. Authenticated endpoints receive the caller's user id directly.
- JWT signing and verification and bcrypt are opaque library calls. They are the parameters `sign`, `verify`, `hash` and `matches`. Token expiry is part of `verify`.
- Blob-store uploads are foreign network I/O. `Catalog.CreateProduct` receives the logo URL and the media URLs they return. An upload failure (500) is not modelled.
- Requests run one after another. The check-then-write race in `toggleVote`, the parallel query and count in `getAllProducts`, and the `addComment` branch for a failed counter update (reachable only under a race) are not modelled.
- `updateProduct` is not modelled. It writes whatever fields the request body names, counters included, with no ownership check, so no counter invariant survives it.
- Feed.ListProducts: requires the category to be free of regular-expression metacharacters. The source splices it into `^…$`, and a metacharacter would change the match.
- Feed.Matching: folds only ASCII letters, and compares whole strings. The MongoDB server evaluates the `$regex` filter with option `i` in its own regular-expression engine (PCRE, in UTF-8 mode). That engine also folds non-ASCII letters. Its `$` also matches just before a final newline, so a stored category "Global\n" matches `category=global` there but not in the model. For such categories the model's match is narrower.
- Feed.ListProducts: the text of `limit`/`offset` arrives already classified as absent, a natural number or not a number. Negative and fractional numbers are out. A negative `offset` is a negative skip, which the server rejects. A negative `limit` is not rejected: the Node driver sends its absolute value as the limit and asks for a single batch. A fractional value is not modelled at all.
- CommentLedger.ListComments: `limit` and `offset` are absent (then 10 and 0) or natural numbers. A `parseInt` that yields NaN is out, and so are negative values.
- Users.GetSubmissionsByUser: requires the page, after the default of 1 for an absent one, to be at least 1. A smaller page gives a negative skip, which the database rejects. A missing `userId` query parameter is not modelled.
- Users.GetVotedProductsByUser: requires the page, after the default of 1 for an absent one, to be at least 1, for the same negative-skip reason. The repeated user look-up after the queries always succeeds when requests run one at a time, so it is folded into the first.
- Sorting is stable (ties keep store order), and "all" is insertion order. MongoDB guarantees neither, so the model fixes one of the orders the database may return.
- `populate` is not modelled: submitter name and email, comment author name. Replies hold the stored documents.
- Ids that cannot be cast to ObjectId (a 500 in the source) are not modelled. Ids are plain strings.
- Store failures other than schema validation and unique-index violations are not modelled (500 in every controller).
- The `$inc` of a user `upvotes` field in `toggleVote` changes nothing. The user schema declares no such path, so the model leaves users unchanged.
- The `_id` of upvote records is not modelled; nothing reads it.
- `randomID` comes from src/helper/utils.js, which is not part of this model. Its value is the `newUserId` parameter, and a collision is modelled as the unique-index failure it causes.
- Catalog.CreateProductPreservesConsistency: requires that no upvote or comment already refers to the new id. A client can cast a vote for an id that does not exist yet. Store-generated ids make a later clash practically impossible, but nothing rules it out.

## Findings

| source | as written | input that shows it | evidently intended | confidence | as-written member | corrected member |
|---|---|---|---|---|---|---|
| src/controllers/product.controller.js:50-58 | When verification fails, the callback assigns `null` to `token`, which is declared `const`. The TypeError is caught at lines 76-78, so the request answers 500. | `GET /:id` for a stored product with `Authorization: Bearer <invalid or expired token>` | Fall back to an anonymous viewer and answer 200 with `isUpvoted` false | high, not executed | `Feed.GetProductById` (shown by `Feed.InvalidTokenAnswersServerError`) | `Feed.GetProductByIdAnonymousFallback` |
| src/controllers/product.controller.js:300-303 | After deleting the comment, a `$pull` of the comment id targets the numeric `comments` field. It never decrements the field. The id cannot be cast to a number, so the update is rejected and the request answers 500 although the comment is gone. | A product with `comments` 1 and its single comment `c1`, then `removeComment(c1)` | Decrement the product's `comments`, undoing `addComment` | medium for the 500 reply, high for the stale counter; not executed | `CommentLedger.RemoveComment` (shown by `CommentLedger.RemoveCommentLeavesCounterStale`) | `CommentLedger.RemoveCommentDecrementing` (proved by `CommentLedger.RemoveCommentDecrementingPreservesSettled`) |

=== FILE: catalog.dfy ===
/**
 * Creating and deleting products: `createProduct`'s checks and the
 * schema validation on save, and `deleteProduct`'s ownership check.
 */
module Catalog {
  import opened Wrappers
  import opened Records
  import Seqs
  import ProductSchema
  import opened Invariants

  /**
   * The text fields of a product submission and the number of logo files
   * attached. The logo and media files themselves go to the blob store; the
   * URLs it returns are passed to `CreateProduct` separately.
   */
  datatype CreateRequest = CreateRequest(
    name: string,
    tagline: string,
    description: string,
    website: string,
    category: string,
    logoFiles: nat)

  predicate FieldsPresent(req: CreateRequest) {
    req.name != "" && req.tagline != "" && req.description != "" && req.website != "" && req.category != ""
  }

  /**
   * `createProduct`: all five text fields and a logo are required, and the
   * authenticated caller must exist. The product is built from the uploaded
   * URLs (`mediaUrls` is empty when no media files were sent) and saved;
   * schema validation failing on save answers 500.
   */
  function CreateProduct(
    s: Store, caller: ObjectId, req: CreateRequest,
    logoUrl: string, mediaUrls: seq<string>, newId: ObjectId, now: Timestamp)
    : (r: (Result<Product, Failure>, Store))
    ensures !FieldsPresent(req) ==> r == (Failure(BadRequest("All fields are required")), s)
    ensures FieldsPresent(req) && req.logoFiles == 0 ==>
      r == (Failure(BadRequest("Logo image is required")), s)
    ensures FieldsPresent(req) && req.logoFiles > 0 && FindUser(s.users, caller).None? ==>
      r == (Failure(NotFound("User not found")), s)
    ensures r.0.Failure? ==> r.1 == s
    ensures r.0.Success? <==>
      FieldsPresent(req) && req.logoFiles > 0 && FindUser(s.users, caller).Some?
      && caller != "" && ProductSchema.MinMedias <= |mediaUrls| <= ProductSchema.MaxMedias
    ensures r.0 == Failure(ServerError("Product creation failed")) <==>
      FieldsPresent(req) && req.logoFiles > 0 && FindUser(s.users, caller).Some?
      && !(caller != "" && ProductSchema.MinMedias <= |mediaUrls| <= ProductSchema.MaxMedias)
    ensures r.0.Success? ==>
      var p := r.0.value;
      && p.id == newId && p.name == req.name && p.tagline == req.tagline
      && p.description == req.description && p.website == req.website
      && p.category == req.category && p.logo == logoUrl && p.medias == mediaUrls
      && p.submittedBy == caller && p.upvotes == 0 && p.comments == 0 && p.createdAt == now
      && r.1 == s.(products := s.products + [p])
  {
    if !FieldsPresent(req) then
      (Failure(BadRequest("All fields are required")), s)
    else if req.logoFiles == 0 then
      (Failure(BadRequest("Logo image is required")), s)
    else
      match FindUser(s.users, caller)
      case None => (Failure(NotFound("User not found")), s)
      case Some(user) =>
        var fields := ProductSchema.ProductFields(
          req.name, req.tagline, req.description, req.website, logoUrl,
          Some(req.category), mediaUrls, caller);
        var p := ProductSchema.NewProduct(newId, fields, now);
        if !ProductSchema.Valid(p) then
          (Failure(ServerError("Product creation failed")), s)
        else
          (Success(p), s.(products := s.products + [p]))
  }

  /** A submission without media files never gets stored. */
  lemma CreateWithoutMediaFails(
    s: Store, caller: ObjectId, req: CreateRequest, logoUrl: string, newId: ObjectId, now: Timestamp)
    requires FieldsPresent(req) && req.logoFiles > 0 && FindUser(s.users, caller).Some?
    ensures CreateProduct(s, caller, req, logoUrl, [], newId, now) ==
      (Failure(ServerError("Product creation failed")), s)
  {
  }

  /**
   * Storing a product under a freshly generated id keeps the store
   * consistent: the new product starts with counters of 0 and nothing
   * refers to it yet.
   */
  lemma CreateProductPreservesConsistency(
    s: Store, caller: ObjectId, req: CreateRequest,
    logoUrl: string, mediaUrls: seq<string>, newId: ObjectId, now: Timestamp)
    requires Consistent(s)
    requires FreshProductId(s, newId)
    ensures Consistent(CreateProduct(s, caller, req, logoUrl, mediaUrls, newId, now).1)
    ensures Settled(s) ==> Settled(CreateProduct(s, caller, req, logoUrl, mediaUrls, newId, now).1)
  {
    var r := CreateProduct(s, caller, req, logoUrl, mediaUrls, newId, now);
    if r.0.Success? {
      var p := r.0.value;
      Seqs.FilterEmpty(s.votes, VoteOn(newId));
      Seqs.FilterEmpty(s.comments, CommentOn(newId));
      assert UniqueProductIds(r.1.products) by {
        forall i, j | 0 <= i < j < |r.1.products|
          ensures r.1.products[i].id != r.1.products[j].id
        {
          assert r.1.products[i] in s.products;
          if j < |s.products| {
            assert r.1.products[j] in s.products;
          }
        }
      }
    }
  }

  /**
   * `deleteProduct`: the product must exist and the caller must be its
   * submitter. Only the product document is deleted; its upvotes and
   * comments stay in the store.
   */
  function DeleteProduct(s: Store, caller: ObjectId, id: ObjectId): (r: (Result<(), Failure>, Store))
    ensures FindProduct(s.products, id).None? ==> r == (Failure(NotFound("Product not found")), s)
    ensures FindProduct(s.products, id).Some? && FindProduct(s.products, id).value.submittedBy != caller ==>
      r == (Failure(Forbidden("Not authorized")), s)
    ensures r.0.Success? <==>
      FindProduct(s.products, id).Some? && FindProduct(s.products, id).value.submittedBy == caller
    ensures r.0.Success? ==>
      var p := FindProduct(s.products, id).value;
      && |r.1.products| + 1 == |s.products|
      && multiset(r.1.products) + multiset{p} == multiset(s.products)
      && r.1.votes == s.votes
      && r.1.comments == s.comments
      && r.1.users == s.users
  {
    match FindProduct(s.products, id)
    case None => (Failure(NotFound("Product not found")), s)
    case Some(product) =>
      if product.submittedBy != caller then
        (Failure(Forbidden("Not authorized")), s)
      else
        (Success(()), s.(products := Seqs.RemoveFirst(s.products, ProductWithId(id))))
  }

  /** Cutting one product out of a collection with unique ids keeps them unique, and its id is gone. */
  lemma UniqueAfterRemoveAt(products: seq<Product>, i: nat)
    requires UniqueProductIds(products) && i < |products|
    ensures UniqueProductIds(products[..i] + products[i+1..])
    ensures forall p :: p in products[..i] + products[i+1..] ==> p.id != products[i].id && p in products
  {
    var r := products[..i] + products[i+1..];
    assert forall a :: 0 <= a < |r| ==> r[a] == products[if a < i then a else a + 1];
  }

  /**
   * Deleting a product keeps the store consistent, and afterwards no stored
   * product has the deleted id; the other products keep their counters,
   * since the records they count are unchanged.
   */
  lemma DeleteProductPreservesConsistency(s: Store, caller: ObjectId, id: ObjectId)
    requires Consistent(s)
    ensures Consistent(DeleteProduct(s, caller, id).1)
    ensures Settled(s) ==> Settled(DeleteProduct(s, caller, id).1)
    ensures DeleteProduct(s, caller, id).0.Success? ==>
      forall p :: p in DeleteProduct(s, caller, id).1.products ==> p.id != id
  {
    var r := DeleteProduct(s, caller, id);
    if r.0.Success? {
      var i := Seqs.FirstIndex(s.products, ProductWithId(id)).value;
      assert r.1.products == s.products[..i] + s.products[i+1..];
      UniqueAfterRemoveAt(s.products, i);
    }
  }
}

=== FILE: comment_ledger.dfy ===
/**
 * The comment ledger: adding, listing and removing comments, and the
 * product's `comments` counter that adding maintains.
 */
module CommentLedger {
  import opened Wrappers
  import opened Records
  import Seqs
  import ProductSchema
  import opened Invariants

  /** One page of a product's comments and the number of all its comments. */
  datatype CommentPage = CommentPage(comments: seq<Comment>, total: nat)

  /**
   * `addComment`: the product id, content and author's external id must all
   * be present; the product is resolved by id and the author by external id.
   * One comment is stored and the product's counter incremented.
   */
  function AddComment(s: Store, productId: ObjectId, content: string, authorId: string, newId: ObjectId, now: Timestamp)
    : (r: (Result<Comment, Failure>, Store))
    ensures productId == "" || content == "" || authorId == "" ==>
      r == (Failure(BadRequest("Product ID, content, and author ID are required")), s)
    ensures productId != "" && content != "" && authorId != "" && FindProduct(s.products, productId).None? ==>
      r == (Failure(NotFound("Product not found")), s)
    ensures (productId != "" && content != "" && authorId != "" && FindProduct(s.products, productId).Some?
             && FindUserByExternalId(s.users, authorId).None?) ==>
      r == (Failure(NotFound("Author not found")), s)
    ensures r.0.Success? <==>
      productId != "" && content != "" && authorId != ""
      && FindProduct(s.products, productId).Some? && FindUserByExternalId(s.users, authorId).Some?
    ensures r.0.Success? ==>
      var author := FindUserByExternalId(s.users, authorId).value;
      && r.0.value == Comment(newId, content, author.id, productId, now)
      && author.userId == authorId
      && r.1.comments == s.comments + [r.0.value]
      && r.1.products == Inc(s.products, productId, Comments, 1)
      && r.1.users == s.users
      && r.1.votes == s.votes
  {
    if productId == "" || content == "" || authorId == "" then
      (Failure(BadRequest("Product ID, content, and author ID are required")), s)
    else
      match FindProduct(s.products, productId)
      case None => (Failure(NotFound("Product not found")), s)
      case Some(product) =>
        match FindUserByExternalId(s.users, authorId)
        case None => (Failure(NotFound("Author not found")), s)
        case Some(author) =>
          var comment := Comment(newId, content, author.id, product.id, now);
          (Success(comment),
           s.(comments := s.comments + [comment],
              products := Inc(s.products, product.id, Comments, 1)))
  }

  /** The creation time, the key of the newest-first order. */
  function CommentTime(c: Comment): int {
    c.createdAt
  }

  /** Page size and skip `getProductComments` uses when the query leaves them out. */
  const DefaultCommentLimit: nat := 10
  const DefaultCommentOffset: nat := 0

  /**
   * `getProductComments`: the product's comments newest first, after
   * skipping `offset` and keeping at most `limit` (0 meaning no limit), and
   * the count of all the product's comments. An absent `limit` is 10 and an
   * absent `offset` is 0.
   */
  function ListComments(s: Store, productId: ObjectId, limit: Option<nat>, offset: Option<nat>): (r: CommentPage)
    ensures r.total == |CommentsOn(s.comments, productId)|
    ensures limit.None? ==> |r.comments| <= DefaultCommentLimit
    ensures offset.None? ==> r.comments <= Seqs.SortDesc(CommentsOn(s.comments, productId), CommentTime)
    ensures Seqs.NonIncreasing(r.comments, CommentTime)
    ensures forall c :: c in r.comments ==> c in s.comments && c.product == productId
    ensures var lim := limit.GetOr(DefaultCommentLimit); var off := offset.GetOr(DefaultCommentOffset);
      && (lim > 0 ==> |r.comments| <= lim)
      && (off < r.total && (lim == 0 || off + lim >= r.total) ==> |r.comments| == r.total - off)
      && (off < r.total && lim > 0 && off + lim < r.total ==> |r.comments| == lim)
      && (off >= r.total ==> r.comments == [])
      && r.comments == Seqs.Window(Seqs.SortDesc(CommentsOn(s.comments, productId), CommentTime), off, lim)
  {
    var limit := limit.GetOr(DefaultCommentLimit);
    var offset := offset.GetOr(DefaultCommentOffset);
    var mine := CommentsOn(s.comments, productId);
    var newest := Seqs.SortDesc(mine, CommentTime);
    var page := Seqs.Window(newest, offset, limit);
    Seqs.WindowNonIncreasing(newest, offset, limit, CommentTime);
    Seqs.WindowMembers(newest, offset, limit);
    Seqs.PermutationMembers(newest, mine);
    CommentPage(page, |mine|)
  }

  /** The total does not depend on which page is asked for. */
  lemma ListCommentsTotalIgnoresPage(
    s: Store, productId: ObjectId, l1: Option<nat>, o1: Option<nat>, l2: Option<nat>, o2: Option<nat>)
    ensures ListComments(s, productId, l1, o1).total == ListComments(s, productId, l2, o2).total
  {
  }

  /**
   * A comment that `addComment` stores shows up in the product's listing:
   * the total grows by one and the unpaged listing holds the new comment.
   */
  lemma {:induction false} AddedCommentIsListed(
    s: Store, productId: ObjectId, content: string, authorId: string, newId: ObjectId, now: Timestamp)
    requires AddComment(s, productId, content, authorId, newId, now).0.Success?
    ensures var r := AddComment(s, productId, content, authorId, newId, now);
      && ListComments(r.1, productId, Some(0), Some(0)).total == ListComments(s, productId, Some(0), Some(0)).total + 1
      && r.0.value in ListComments(r.1, productId, Some(0), Some(0)).comments
  {
    var r := AddComment(s, productId, content, authorId, newId, now);
    var c := r.0.value;
    Seqs.FilterAppend(s.comments, c, CommentOn(productId));
    var mine := CommentsOn(r.1.comments, productId);
    assert mine == CommentsOn(s.comments, productId) + [c];
    assert c in mine;
    var newest := Seqs.SortDesc(mine, CommentTime);
    Seqs.PermutationMembers(newest, mine);
    assert Seqs.Window(newest, 0, 0) == newest;
  }

  /**
   * `removeComment` as written: the comment is deleted, then a `$pull` of
   * its id is sent against the product's numeric `comments` field. That
   * update cannot cast an id to a number and is rejected, so the counter is
   * never decremented and the request answers 500 although the comment is
   * already gone.
   */
  function RemoveComment(s: Store, commentId: ObjectId): (r: (Result<(), Failure>, Store))
    ensures Seqs.First(s.comments, CommentWithId(commentId)).None? ==>
      r == (Failure(NotFound("Comment not found")), s)
    ensures Seqs.First(s.comments, CommentWithId(commentId)).Some? ==>
      var c := Seqs.First(s.comments, CommentWithId(commentId)).value;
      && r.0 == Failure(ServerError("Delete comment failed"))
      && |r.1.comments| + 1 == |s.comments|
      && multiset(r.1.comments) + multiset{c} == multiset(s.comments)
      && c.id == commentId
      && r.1.products == s.products
      && r.1.users == s.users
      && r.1.votes == s.votes
  {
    match Seqs.First(s.comments, CommentWithId(commentId))
    case None => (Failure(NotFound("Comment not found")), s)
    case Some(c) =>
      (Failure(ServerError("Delete comment failed")),
       s.(comments := Seqs.RemoveFirst(s.comments, CommentWithId(commentId))))
  }

  /**
   * `removeComment` as evidently intended: the comment is deleted and the
   * owning product's counter is decremented, undoing `addComment`.
   */
  function RemoveCommentDecrementing(s: Store, commentId: ObjectId): (r: (Result<(), Failure>, Store))
    ensures Seqs.First(s.comments, CommentWithId(commentId)).None? ==>
      r == (Failure(NotFound("Comment not found")), s)
    ensures Seqs.First(s.comments, CommentWithId(commentId)).Some? ==>
      var c := Seqs.First(s.comments, CommentWithId(commentId)).value;
      && r.0.Success?
      && |r.1.comments| + 1 == |s.comments|
      && multiset(r.1.comments) + multiset{c} == multiset(s.comments)
      && r.1.products == Inc(s.products, c.product, Comments, -1)
      && r.1.users == s.users
      && r.1.votes == s.votes
  {
    match Seqs.First(s.comments, CommentWithId(commentId))
    case None => (Failure(NotFound("Comment not found")), s)
    case Some(c) =>
      (Success(()),
       s.(comments := Seqs.RemoveFirst(s.comments, CommentWithId(commentId)),
          products := Inc(s.products, c.product, Comments, -1)))
  }

  /** Each product's comment tally after deleting the first comment with an id. */
  lemma RemovalTallies(comments: seq<Comment>, commentId: ObjectId)
    requires Seqs.First(comments, CommentWithId(commentId)).Some?
    ensures var c := Seqs.First(comments, CommentWithId(commentId)).value;
      var after := Seqs.RemoveFirst(comments, CommentWithId(commentId));
      forall q :: |CommentsOn(after, q)| + (if q == c.product then 1 else 0) == |CommentsOn(comments, q)|
  {
    var i := Seqs.FirstIndex(comments, CommentWithId(commentId)).value;
    assert Seqs.First(comments, CommentWithId(commentId)).value == comments[i];
    assert Seqs.RemoveFirst(comments, CommentWithId(commentId)) == comments[..i] + comments[i+1..];
    forall q
      ensures |CommentsOn(Seqs.RemoveFirst(comments, CommentWithId(commentId)), q)|
        + (if q == comments[i].product then 1 else 0) == |CommentsOn(comments, q)|
    {
      Seqs.FilterRemoveAt(comments, i, CommentOn(q));
    }
  }

  /** Moving `comments` keeps every other field of every product. */
  lemma IncCommentsAt(before: seq<Product>, productId: ObjectId, d: int, p': Product)
    requires UniqueProductIds(before)
    requires p' in Inc(before, productId, Comments, d)
    ensures exists j :: (0 <= j < |before| && p' == before[j].(comments := p'.comments)
                         && p'.comments == before[j].comments + (if before[j].id == productId then d else 0))
  {
    var j :| 0 <= j < |before| && Inc(before, productId, Comments, d)[j] == p';
    assert p' == before[j].(comments := p'.comments);
  }

  /** One product's counters under the change `CommentCountersFollow` describes. */
  lemma CommentCounterAt(before: Store, after: Store, productId: ObjectId, d: int, t: int, p': Product)
    requires Consistent(before)
    requires after.products == Inc(before.products, productId, Comments, d)
    requires after.votes == before.votes
    requires forall q :: |CommentsOn(after.comments, q)| == |CommentsOn(before.comments, q)| + (if q == productId then t else 0)
    requires d >= t
    requires p' in after.products
    ensures p'.upvotes == |VotesOn(after.votes, p'.id)|
    ensures p'.comments >= |CommentsOn(after.comments, p'.id)|
    ensures ProductSchema.Valid(p')
    ensures CommentsExact(before) && d == t ==> p'.comments == |CommentsOn(after.comments, p'.id)|
  {
    IncCommentsAt(before.products, productId, d, p');
    var j :| 0 <= j < |before.products| && p' == before.products[j].(comments := p'.comments)
      && p'.comments == before.products[j].comments + (if before.products[j].id == productId then d else 0);
    var p := before.products[j];
    assert p in before.products;
    assert p'.id == p.id && p'.upvotes == p.upvotes;
  }

  /**
   * Comment counters under a change that moves `comments` of `productId` by
   * `d` while the tally of `productId` moves by `t`; `d >= t` keeps the
   * counters covering, `d == t` keeps exact ones exact.
   */
  lemma CommentCountersFollow(before: Store, after: Store, productId: ObjectId, d: int, t: int)
    requires Consistent(before)
    requires after.products == Inc(before.products, productId, Comments, d)
    requires after.votes == before.votes && after.users == before.users
    requires forall q :: |CommentsOn(after.comments, q)| == |CommentsOn(before.comments, q)| + (if q == productId then t else 0)
    requires d >= t
    ensures Consistent(after)
    ensures CommentsExact(before) && d == t ==> CommentsExact(after)
  {
    assert UniqueProductIds(after.products) by {
      assert forall j :: 0 <= j < |after.products| ==> after.products[j].id == before.products[j].id;
    }
    forall p' | p' in after.products
      ensures p'.upvotes == |VotesOn(after.votes, p'.id)|
      ensures p'.comments >= |CommentsOn(after.comments, p'.id)|
      ensures ProductSchema.Valid(p')
      ensures CommentsExact(before) && d == t ==> p'.comments == |CommentsOn(after.comments, p'.id)|
    {
      CommentCounterAt(before, after, productId, d, t, p');
    }
  }

  /** A successful `addComment` keeps consistency, and keeps exact comment counters exact. */
  lemma AddCommentPreservesConsistency(s: Store, productId: ObjectId, content: string, authorId: string, newId: ObjectId, now: Timestamp)
    requires Consistent(s)
    ensures Consistent(AddComment(s, productId, content, authorId, newId, now).1)
    ensures Settled(s) ==> Settled(AddComment(s, productId, content, authorId, newId, now).1)
  {
    var r := AddComment(s, productId, content, authorId, newId, now);
    if r.0.Success? {
      forall q
        ensures |CommentsOn(r.1.comments, q)| == |CommentsOn(s.comments, q)| + (if q == productId then 1 else 0)
      {
        Seqs.FilterAppend(s.comments, r.0.value, CommentOn(q));
      }
      CommentCountersFollow(s, r.1, productId, 1, 1);
    }
  }

  /** `removeComment` as written keeps the counters covering the comment records. */
  lemma RemoveCommentPreservesConsistency(s: Store, commentId: ObjectId)
    requires Consistent(s)
    ensures Consistent(RemoveComment(s, commentId).1)
  {
    var r := RemoveComment(s, commentId);
    if Seqs.First(s.comments, CommentWithId(commentId)).Some? {
      var c := Seqs.First(s.comments, CommentWithId(commentId)).value;
      RemovalTallies(s.comments, commentId);
      IncZero(s.products, c.product, Comments);
      CommentCountersFollow(s, r.1, c.product, 0, -1);
    }
  }

  /**
   * The stale counter, concretely: a product with one comment and an exact
   * counter of 1 still reports 1 after that comment is removed, and the
   * request reports a server error.
   */
  lemma RemoveCommentLeavesCounterStale()
    ensures var p := Product("p1", "Name", "Tagline", "", "", "", "Global", ["m"], "u1", 0, 1, 0);
      var s := Store([], [p], [], [Comment("c1", "nice", "u1", "p1", 0)]);
      var r := RemoveComment(s, "c1");
      && Settled(s)
      && r.0 == Failure(ServerError("Delete comment failed"))
      && r.1.comments == []
      && r.1.products == [p]
      && !CommentsExact(r.1)
  {
    var p := Product("p1", "Name", "Tagline", "", "", "", "Global", ["m"], "u1", 0, 1, 0);
    var c := Comment("c1", "nice", "u1", "p1", 0);
    var s := Store([], [p], [], [c]);
    assert CommentsOn([c], "p1") == [c];
    assert VotesOn([], "p1") == [];
    assert forall u, q :: VotesFor([], u, q) == [];
    assert Seqs.FirstIndex([c], CommentWithId("c1")) == Some(0);
    assert p in RemoveComment(s, "c1").1.products;
    assert CommentsOn([], "p1") == [];
  }

  /** The corrected removal keeps exact comment counters exact. */
  lemma RemoveCommentDecrementingPreservesSettled(s: Store, commentId: ObjectId)
    requires Settled(s)
    ensures Settled(RemoveCommentDecrementing(s, commentId).1)
  {
    var r := RemoveCommentDecrementing(s, commentId);
    if Seqs.First(s.comments, CommentWithId(commentId)).Some? {
      var c := Seqs.First(s.comments, CommentWithId(commentId)).value;
      RemovalTallies(s.comments, commentId);
      CommentCountersFollow(s, r.1, c.product, -1, -1);
    }
  }
}

=== FILE: feed.dfy ===
/**
 * The product feed: the paged, sorted, category-filtered listing
 * (`getAllProducts`) and the product detail with the viewer's `isUpvoted`
 * flag (`getProductById`).
 */
module Feed {
  import opened Wrappers
  import opened Records
  import Seqs

  /** A numeric query parameter: absent (use the default), a number, or text that is not a number. */
  datatype NumParam = Omitted | Numeric(n: nat) | NotANumber

  datatype FeedQuery = FeedQuery(
    limit: NumParam,
    offset: NumParam,
    sort: Option<string>,
    category: Option<string>)

  datatype FeedPage = FeedPage(products: seq<Product>, totalCount: nat)

  /** The three orders the feed offers: store order, newest first, most upvoted first. */
  datatype SortOrder = StoreOrder | Latest | Trending

  const DefaultLimit: nat := 10
  const DefaultOffset: nat := 0
  const AllSort: string := "all"
  const AllCategories: string := "all"

  function ParamOr(p: NumParam, default: nat): nat
    requires !p.NotANumber?
  {
    match p
    case Omitted => default
    case Numeric(n) => n
  }

  /** The sort option named by the `sort` parameter; anything else is rejected. */
  function ParseSort(sort: string): (r: Option<SortOrder>)
    ensures r == Some(StoreOrder) <==> sort == "all"
    ensures r == Some(Latest) <==> sort == "latest"
    ensures r == Some(Trending) <==> sort == "trending"
  {
    if sort == "latest" then Some(Latest)
    else if sort == "trending" then Some(Trending)
    else if sort == AllSort then Some(StoreOrder)
    else None
  }

  function CreatedAt(p: Product): int {
    p.createdAt
  }

  function UpvoteCount(p: Product): int {
    p.upvotes
  }

  /** Folds an ASCII capital letter to lower case. */
  function Lower(c: char): char {
    if 'A' <= c <= 'Z' then (c as int + 32) as char else c
  }

  /** The two strings are equal once letters are folded to one case. */
  predicate EqualsIgnoreCase(a: string, b: string) {
    |a| == |b| && forall i :: 0 <= i < |a| ==> Lower(a[i]) == Lower(b[i])
  }

  lemma EqualsIgnoreCaseTransitive(a: string, b: string, c: string)
    requires EqualsIgnoreCase(a, b) && EqualsIgnoreCase(b, c)
    ensures EqualsIgnoreCase(a, c)
  {
  }

  /** The category text holds no regular-expression metacharacter, so `^text$` with flag `i` matches it literally. */
  predicate NoRegexMeta(category: string) {
    forall i :: 0 <= i < |category| ==> category[i] !in "\\^$.|?*+()[]{}"
  }

  function InCategory(category: string): Product -> bool {
    (p: Product) => EqualsIgnoreCase(p.category, category)
  }

  /** The products the category filter keeps, in store order. */
  function Matching(products: seq<Product>, category: string): (r: seq<Product>)
    ensures category == AllCategories ==> r == products
    ensures category != AllCategories ==>
      forall p :: p in r <==> p in products && EqualsIgnoreCase(p.category, category)
    ensures multiset(r) <= multiset(products)
  {
    if category == AllCategories then products else Seqs.Filter(products, InCategory(category))
  }

  /** The products in the requested order. */
  function Ordered(products: seq<Product>, order: SortOrder): (r: seq<Product>)
    ensures multiset(r) == multiset(products)
    ensures order.StoreOrder? ==> r == products
    ensures order.Latest? ==> Seqs.NonIncreasing(r, CreatedAt)
    ensures order.Trending? ==> Seqs.NonIncreasing(r, UpvoteCount)
  {
    match order
    case StoreOrder => products
    case Latest => Seqs.SortDesc(products, CreatedAt)
    case Trending => Seqs.SortDesc(products, UpvoteCount)
  }

  /**
   * `getAllProducts`: rejects a non-numeric `limit`/`offset` and an unknown
   * `sort`; otherwise filters by category, orders, skips `offset`, keeps at
   * most `limit` (0 meaning no limit) and reports how many products match
   * the filter.
   */
  function ListProducts(s: Store, q: FeedQuery): (r: Result<FeedPage, Failure>)
    requires q.category.Some? ==> NoRegexMeta(q.category.value)
    ensures q.limit.NotANumber? || q.offset.NotANumber? ==>
      r == Failure(BadRequest("Invalid limit or offset"))
    ensures !q.limit.NotANumber? && !q.offset.NotANumber? && ParseSort(q.sort.GetOr(AllSort)).None? ==>
      r == Failure(BadRequest("Invalid sort option"))
    ensures r.Success? <==>
      !q.limit.NotANumber? && !q.offset.NotANumber? && ParseSort(q.sort.GetOr(AllSort)).Some?
    ensures r.Success? ==>
      var matching := Matching(s.products, q.category.GetOr(AllCategories));
      var ordered := Ordered(matching, ParseSort(q.sort.GetOr(AllSort)).value);
      && r.value.totalCount == |matching|
      && r.value.products == Seqs.Window(ordered, ParamOr(q.offset, DefaultOffset), ParamOr(q.limit, DefaultLimit))
  {
    if q.limit.NotANumber? || q.offset.NotANumber? then
      Failure(BadRequest("Invalid limit or offset"))
    else
      match ParseSort(q.sort.GetOr(AllSort))
      case None => Failure(BadRequest("Invalid sort option"))
      case Some(order) =>
        var matching := Matching(s.products, q.category.GetOr(AllCategories));
        var page := Seqs.Window(Ordered(matching, order), ParamOr(q.offset, DefaultOffset), ParamOr(q.limit, DefaultLimit));
        Success(FeedPage(page, |matching|))
  }

  /**
   * Every product on a page is a stored product in the requested category,
   * and the page is no longer than the limit (the default of 10 when none
   * is given; a limit of 0 means no limit).
   */
  lemma ListProductsPageMembers(s: Store, q: FeedQuery)
    requires q.category.Some? ==> NoRegexMeta(q.category.value)
    requires ListProducts(s, q).Success?
    ensures var page := ListProducts(s, q).value.products;
      var category := q.category.GetOr(AllCategories);
      && (forall p :: p in page ==> p in s.products)
      && (category != AllCategories ==> forall p :: p in page ==> EqualsIgnoreCase(p.category, category))
      && (q.limit.Numeric? && q.limit.n > 0 ==> |page| <= q.limit.n)
      && (q.limit.Omitted? ==> |page| <= DefaultLimit)
  {
    var category := q.category.GetOr(AllCategories);
    var matching := Matching(s.products, category);
    var ordered := Ordered(matching, ParseSort(q.sort.GetOr(AllSort)).value);
    var offset := ParamOr(q.offset, DefaultOffset);
    var page := Seqs.Window(ordered, offset, ParamOr(q.limit, DefaultLimit));
    forall p | p in page
      ensures p in matching
    {
      var k :| 0 <= k < |page| && page[k] == p;
      assert ordered[offset + k] == p;
      assert p in multiset(ordered);
    }
    forall p | p in matching
      ensures p in s.products
    {
      assert p in multiset(matching);
    }
  }

  /**
   * A page follows the requested order: newest first for "latest", most
   * upvoted first for "trending", and for "all" the matching products in
   * store order, windowed.
   */
  lemma ListProductsPageOrder(s: Store, q: FeedQuery)
    requires q.category.Some? ==> NoRegexMeta(q.category.value)
    requires ListProducts(s, q).Success?
    ensures var page := ListProducts(s, q).value.products;
      var order := ParseSort(q.sort.GetOr(AllSort)).value;
      && (order.Latest? ==> Seqs.NonIncreasing(page, CreatedAt))
      && (order.Trending? ==> Seqs.NonIncreasing(page, UpvoteCount))
      && (order.StoreOrder? ==>
            page == Seqs.Window(Matching(s.products, q.category.GetOr(AllCategories)),
                                ParamOr(q.offset, DefaultOffset), ParamOr(q.limit, DefaultLimit)))
  {
    var order := ParseSort(q.sort.GetOr(AllSort)).value;
    var ordered := Ordered(Matching(s.products, q.category.GetOr(AllCategories)), order);
    var offset := ParamOr(q.offset, DefaultOffset);
    var limit := ParamOr(q.limit, DefaultLimit);
    if order.Latest? {
      Seqs.WindowNonIncreasing(ordered, offset, limit, CreatedAt);
    }
    if order.Trending? {
      Seqs.WindowNonIncreasing(ordered, offset, limit, UpvoteCount);
    }
  }

  /** `totalCount` depends only on the category, not on the page, the limit or the order. */
  lemma TotalCountIgnoresPaging(s: Store, q1: FeedQuery, q2: FeedQuery)
    requires q1.category == q2.category
    requires q1.category.Some? ==> NoRegexMeta(q1.category.value)
    requires ListProducts(s, q1).Success? && ListProducts(s, q2).Success?
    ensures ListProducts(s, q1).value.totalCount == ListProducts(s, q2).value.totalCount
  {
  }

  /** Two category names that differ only in letter case select the same feed. */
  lemma {:induction false} CategoryIgnoresCase(s: Store, q: FeedQuery, c1: string, c2: string)
    requires NoRegexMeta(c1) && NoRegexMeta(c2)
    requires c1 != AllCategories && c2 != AllCategories
    requires EqualsIgnoreCase(c1, c2)
    ensures ListProducts(s, q.(category := Some(c1))) == ListProducts(s, q.(category := Some(c2)))
  {
    forall p | p in s.products
      ensures InCategory(c1)(p) == InCategory(c2)(p)
    {
      if EqualsIgnoreCase(p.category, c1) {
        EqualsIgnoreCaseTransitive(p.category, c1, c2);
      }
      if EqualsIgnoreCase(p.category, c2) {
        EqualsIgnoreCaseTransitive(p.category, c2, c1);
      }
    }
    Seqs.FilterExtensional(s.products, InCategory(c1), InCategory(c2));
  }

  // Product detail.

  /** A product as the detail endpoint returns it, with the viewer's vote flag. */
  datatype ProductDetail = ProductDetail(product: Product, isUpvoted: bool)

  /** A bearer token was sent: the header's token part is present and non-empty. */
  predicate Presented(token: Option<string>) {
    token.Some? && token.value != ""
  }

  /** The id the vote lookup uses: the decoded id, or none when it is empty. */
  function ViewerId(decoded: Option<ObjectId>): Option<ObjectId> {
    if decoded.Some? && decoded.value != "" then decoded else None
  }

  /** The detail reply for a stored product and an optional viewer. */
  function Detail(s: Store, id: ObjectId, viewer: Option<ObjectId>): (r: Result<ProductDetail, Failure>)
    ensures FindProduct(s.products, id).None? ==> r == Failure(NotFound("Product not found"))
    ensures FindProduct(s.products, id).Some? ==>
      && r.Success?
      && r.value.product == FindProduct(s.products, id).value
      && (r.value.isUpvoted <==> viewer.Some? && HasVote(s.votes, viewer.value, id))
  {
    match FindProduct(s.products, id)
    case None => Failure(NotFound("Product not found"))
    case Some(product) =>
      Success(ProductDetail(product, viewer.Some? && HasVote(s.votes, viewer.value, product.id)))
  }

  /**
   * `getProductById` as written: a token that fails verification makes the
   * callback assign to a constant, which throws, so the request answers 500
   * before the product is even looked up. With no token the viewer is
   * anonymous; with a valid one the flag says whether that user voted.
   */
  function GetProductById(s: Store, id: ObjectId, token: Option<string>, verify: string -> Option<ObjectId>)
    : (r: Result<ProductDetail, Failure>)
    ensures Presented(token) && verify(token.value).None? ==> r == Failure(ServerError("Server error"))
    ensures !(Presented(token) && verify(token.value).None?) && FindProduct(s.products, id).None? ==>
      r == Failure(NotFound("Product not found"))
    ensures r.Success? <==> !(Presented(token) && verify(token.value).None?) && FindProduct(s.products, id).Some?
    ensures r.Success? ==>
      && FindProduct(s.products, id) == Some(r.value.product)
      && (!Presented(token) ==> !r.value.isUpvoted)
      && (Presented(token) ==>
            verify(token.value).Some?
            && (r.value.isUpvoted <==> ViewerId(verify(token.value)).Some?
                                       && HasVote(s.votes, verify(token.value).value, id)))
  {
    if Presented(token) && verify(token.value).None? then
      Failure(ServerError("Server error"))
    else
      var viewer := if Presented(token) then ViewerId(verify(token.value)) else None;
      Detail(s, id, viewer)
  }

  /**
   * `getProductById` as evidently intended: a token that fails verification
   * is treated as no token, so the viewer is anonymous.
   */
  function GetProductByIdAnonymousFallback(s: Store, id: ObjectId, token: Option<string>, verify: string -> Option<ObjectId>)
    : (r: Result<ProductDetail, Failure>)
    ensures FindProduct(s.products, id).None? ==> r == Failure(NotFound("Product not found"))
    ensures FindProduct(s.products, id).Some? ==> r.Success?
    ensures r.Success? ==> FindProduct(s.products, id) == Some(r.value.product)
    ensures r.Success? && !(Presented(token) && ViewerId(verify(token.value)).Some?) ==> !r.value.isUpvoted
    ensures r.Success? && Presented(token) && ViewerId(verify(token.value)).Some? ==>
      (r.value.isUpvoted <==> HasVote(s.votes, verify(token.value).value, id))
  {
    var viewer := if Presented(token) then ViewerId(verify(token.value)) else None;
    Detail(s, id, viewer)
  }

  /**
   * The discrepancy: for a stored product and a token that fails
   * verification, the code as written answers 500, while the intended
   * reading answers exactly what an anonymous request gets.
   */
  lemma InvalidTokenAnswersServerError(s: Store, id: ObjectId, token: string, verify: string -> Option<ObjectId>)
    requires FindProduct(s.products, id).Some?
    requires token != "" && verify(token).None?
    ensures GetProductById(s, id, Some(token), verify) == Failure(ServerError("Server error"))
    ensures GetProductByIdAnonymousFallback(s, id, Some(token), verify) == GetProductById(s, id, None, verify)
    ensures GetProductByIdAnonymousFallback(s, id, Some(token), verify).Success?
  {
  }
}

=== FILE: invariants.dfy ===
/**
 * The consistency conditions the ledgers keep between the stored counters
 * and the records they summarise.
 */
module Invariants {
  import opened Records
  import ProductSchema

  /**
   * The invariant every operation of the model preserves: product ids are
   * unique, the user unique indexes hold, every stored product passes schema
   * validation, `upvotes` counts the upvote records exactly, there is at most
   * one upvote per (user, product), and `comments` is at least the number of
   * comment records.
   */
  ghost predicate Consistent(s: Store) {
    && UniqueProductIds(s.products)
    && UniqueUserKeys(s.users)
    && (forall p :: p in s.products ==> ProductSchema.Valid(p))
    && UpvotesExact(s)
    && OneVotePerPair(s.votes)
    && CommentsCover(s)
  }

  /** `Consistent`, and the comment counters are exact as well. */
  ghost predicate Settled(s: Store) {
    Consistent(s) && CommentsExact(s)
  }

  /** No product, upvote or comment refers to `id`: a freshly generated product id. */
  ghost predicate FreshProductId(s: Store, id: ObjectId) {
    && (forall p :: p in s.products ==> p.id != id)
    && (forall v :: v in s.votes ==> v.product != id)
    && (forall c :: c in s.comments ==> c.product != id)
  }
}

=== FILE: product_schema.dfy ===
/**
 * The product document schema: its defaults and what `save()` validates.
 */
module ProductSchema {
  import opened Wrappers
  import opened Records

  const DefaultCategory: string := "Global"
  const MinMedias: nat := 1
  const MaxMedias: nat := 5

  /** The fields a caller passes to the product constructor; an absent category is `None`. */
  datatype ProductFields = ProductFields(
    name: string,
    tagline: string,
    description: string,
    website: string,
    logo: string,
    category: Option<string>,
    medias: seq<string>,
    submittedBy: ObjectId)

  /**
   * What validation on `save()` accepts: the required strings are non-empty,
   * there are between 1 and 5 media URLs, a submitter is set, and neither
   * counter is below its minimum of 0.
   */
  predicate Valid(p: Product) {
    && p.name != ""
    && p.tagline != ""
    && MinMedias <= |p.medias| <= MaxMedias
    && p.submittedBy != ""
    && p.upvotes >= 0
    && p.comments >= 0
  }

  /** A new product document: the given fields plus the schema defaults. */
  function NewProduct(id: ObjectId, f: ProductFields, now: Timestamp): (p: Product)
    ensures p.id == id && p.name == f.name && p.tagline == f.tagline && p.medias == f.medias
    ensures p.description == f.description && p.website == f.website && p.logo == f.logo
    ensures p.submittedBy == f.submittedBy
    ensures f.category.None? ==> p.category == DefaultCategory
    ensures f.category.Some? ==> p.category == f.category.value
    ensures p.upvotes == 0 && p.comments == 0 && p.createdAt == now
    ensures Valid(p) <==>
      f.name != "" && f.tagline != "" && MinMedias <= |f.medias| <= MaxMedias && f.submittedBy != ""
  {
    Product(
      id, f.name, f.tagline, f.description, f.website, f.logo,
      f.category.GetOr(DefaultCategory), f.medias, f.submittedBy,
      0, 0, now)
  }
}

=== FILE: records.dfy ===
/**
 * The four document collections of the platform (users, products, upvotes,
 * comments) held as one immutable value, with the queries and counter
 * updates that the controllers issue against them.
 */
module Records {
  import opened Wrappers
  import Seqs

  /** A document id (`_id`). */
  type ObjectId = string
  /** A creation time in milliseconds, supplied by the caller. */
  type Timestamp = int

  /** A registered account; `userId` is the public external id, `password` the stored hash. */
  datatype User = User(
    id: ObjectId,
    name: string,
    userId: string,
    email: string,
    password: string,
    createdAt: Timestamp)

  /** A submitted product with its two stored counters. */
  datatype Product = Product(
    id: ObjectId,
    name: string,
    tagline: string,
    description: string,
    website: string,
    logo: string,
    category: string,
    medias: seq<string>,
    submittedBy: ObjectId,
    upvotes: int,
    comments: int,
    createdAt: Timestamp)

  /** One upvote record. Nothing in the store makes (user, product) unique. */
  datatype Vote = Vote(user: ObjectId, product: ObjectId, createdAt: Timestamp)

  datatype Comment = Comment(
    id: ObjectId,
    content: string,
    author: ObjectId,
    product: ObjectId,
    createdAt: Timestamp)

  /** The whole record store; each collection is kept in natural (insertion) order. */
  datatype Store = Store(
    users: seq<User>,
    products: seq<Product>,
    votes: seq<Vote>,
    comments: seq<Comment>)

  /** The error replies of the controllers, each with the message they send. */
  datatype Failure =
    | BadRequest(message: string)
    | Unauthorized(message: string)
    | Forbidden(message: string)
    | NotFound(message: string)
    | ServerError(message: string)

  // Query selectors: the filter documents passed to find/findOne/countDocuments.

  function ProductWithId(id: ObjectId): Product -> bool {
    (p: Product) => p.id == id
  }

  function SubmittedBy(user: ObjectId): Product -> bool {
    (p: Product) => p.submittedBy == user
  }

  function UserWithId(id: ObjectId): User -> bool {
    (u: User) => u.id == id
  }

  function UserWithExternalId(userId: string): User -> bool {
    (u: User) => u.userId == userId
  }

  function UserWithEmail(email: string): User -> bool {
    (u: User) => u.email == email
  }

  function VoteOn(product: ObjectId): Vote -> bool {
    (v: Vote) => v.product == product
  }

  function VoteBy(user: ObjectId): Vote -> bool {
    (v: Vote) => v.user == user
  }

  function VoteFor(user: ObjectId, product: ObjectId): Vote -> bool {
    (v: Vote) => v.user == user && v.product == product
  }

  function CommentOn(product: ObjectId): Comment -> bool {
    (c: Comment) => c.product == product
  }

  function CommentWithId(id: ObjectId): Comment -> bool {
    (c: Comment) => c.id == id
  }

  // Derived collections: what countDocuments counts.

  function VotesOn(votes: seq<Vote>, product: ObjectId): seq<Vote> {
    Seqs.Filter(votes, VoteOn(product))
  }

  function VotesBy(votes: seq<Vote>, user: ObjectId): seq<Vote> {
    Seqs.Filter(votes, VoteBy(user))
  }

  function VotesFor(votes: seq<Vote>, user: ObjectId, product: ObjectId): seq<Vote> {
    Seqs.Filter(votes, VoteFor(user, product))
  }

  function CommentsOn(comments: seq<Comment>, product: ObjectId): seq<Comment> {
    Seqs.Filter(comments, CommentOn(product))
  }

  function SubmissionsOf(products: seq<Product>, user: ObjectId): seq<Product> {
    Seqs.Filter(products, SubmittedBy(user))
  }

  /** `Upvote.exists({ user, product })`. */
  predicate HasVote(votes: seq<Vote>, user: ObjectId, product: ObjectId) {
    exists i | 0 <= i < |votes| :: votes[i].user == user && votes[i].product == product
  }

  lemma HasVoteCount(votes: seq<Vote>, user: ObjectId, product: ObjectId)
    ensures HasVote(votes, user, product) <==> |VotesFor(votes, user, product)| > 0
  {
    var vf := VotesFor(votes, user, product);
    if HasVote(votes, user, product) {
      var i :| 0 <= i < |votes| && votes[i].user == user && votes[i].product == product;
      assert votes[i] in vf;
    }
    if |vf| > 0 {
      Seqs.FilterMembers(votes, VoteFor(user, product));
      var k :| 0 <= k < |votes| && votes[k] == vf[0];
      assert votes[k].user == user && votes[k].product == product;
    }
  }

  // Lookups by key (findById / findOne), returning the first match.

  function ProductIndex(products: seq<Product>, id: ObjectId): Option<nat> {
    Seqs.FirstIndex(products, ProductWithId(id))
  }

  function FindProduct(products: seq<Product>, id: ObjectId): Option<Product> {
    Seqs.First(products, ProductWithId(id))
  }

  function FindUser(users: seq<User>, id: ObjectId): Option<User> {
    Seqs.First(users, UserWithId(id))
  }

  function FindUserByExternalId(users: seq<User>, userId: string): Option<User> {
    Seqs.First(users, UserWithExternalId(userId))
  }

  function FindUserByEmail(users: seq<User>, email: string): Option<User> {
    Seqs.First(users, UserWithEmail(email))
  }

  // The two stored counters of a product and `$inc` on them.

  datatype Counter = Upvotes | Comments

  function CounterValue(p: Product, c: Counter): int {
    match c
    case Upvotes => p.upvotes
    case Comments => p.comments
  }

  /** `p` with counter `c` moved by `delta`; every other field kept. */
  function Bump(p: Product, c: Counter, delta: int): (r: Product)
    ensures CounterValue(r, c) == CounterValue(p, c) + delta
    ensures c.Upvotes? ==> r == p.(upvotes := r.upvotes)
    ensures c.Comments? ==> r == p.(comments := r.comments)
  {
    match c
    case Upvotes => p.(upvotes := p.upvotes + delta)
    case Comments => p.(comments := p.comments + delta)
  }

  /** No two products share an id. */
  ghost predicate UniqueProductIds(products: seq<Product>) {
    forall i, j :: 0 <= i < j < |products| ==> products[i].id != products[j].id
  }

  /**
   * `findByIdAndUpdate(id, { $inc: { c: delta } })`: the product with that id
   * has its counter moved; with no such product nothing changes.
   */
  function Inc(products: seq<Product>, id: ObjectId, c: Counter, delta: int): (r: seq<Product>)
    ensures |r| == |products|
    ensures ProductIndex(products, id).None? ==> r == products
    ensures forall j :: 0 <= j < |products| ==> r[j].id == products[j].id
    ensures forall j :: 0 <= j < |products| && products[j].id != id ==> r[j] == products[j]
    ensures UniqueProductIds(products) ==>
      forall j :: 0 <= j < |products| && products[j].id == id ==> r[j] == Bump(products[j], c, delta)
  {
    match ProductIndex(products, id)
    case None => products
    case Some(i) => products[i := Bump(products[i], c, delta)]
  }

  /** Moving a counter by `delta` and then by `-delta` restores the collection. */
  lemma IncInverse(products: seq<Product>, id: ObjectId, c: Counter, delta: int)
    ensures Inc(Inc(products, id, c, delta), id, c, -delta) == products
  {
    var once := Inc(products, id, c, delta);
    match ProductIndex(products, id)
    case None =>
    case Some(i) =>
      Seqs.FirstIndexAgrees(once, products, ProductWithId(id));
      assert once == products[i := Bump(products[i], c, delta)];
      assert Bump(once[i], c, -delta) == products[i];
      assert Inc(once, id, c, -delta) == once[i := products[i]];
  }

  /** Moving a counter by 0 changes nothing. */
  lemma IncZero(products: seq<Product>, id: ObjectId, c: Counter)
    ensures Inc(products, id, c, 0) == products
  {
    if ProductIndex(products, id).Some? {
      var i := ProductIndex(products, id).value;
      assert Bump(products[i], c, 0) == products[i];
    }
  }

  // Store invariants.

  /** Every product's `upvotes` equals the number of upvote records on it. */
  ghost predicate UpvotesExact(s: Store) {
    forall p :: p in s.products ==> p.upvotes == |VotesOn(s.votes, p.id)|
  }

  /** No (user, product) pair carries more than one upvote record. */
  ghost predicate OneVotePerPair(votes: seq<Vote>) {
    forall u, p :: |VotesFor(votes, u, p)| <= 1
  }

  /** Every product's `comments` equals the number of its comment records. */
  ghost predicate CommentsExact(s: Store) {
    forall p :: p in s.products ==> p.comments == |CommentsOn(s.comments, p.id)|
  }

  /** Every product's `comments` is at least the number of its comment records. */
  ghost predicate CommentsCover(s: Store) {
    forall p :: p in s.products ==> p.comments >= |CommentsOn(s.comments, p.id)|
  }

  /** The unique indexes of the user collection: `_id`, `userId` and `email`. */
  ghost predicate UniqueUserKeys(users: seq<User>) {
    forall i, j :: 0 <= i < j < |users| ==>
      users[i].id != users[j].id && users[i].userId != users[j].userId && users[i].email != users[j].email
  }
}

=== FILE: seqs.dfy ===
/**
 * Sequence operations that the document store performs on a collection:
 * filtering by a query, finding the first match, deleting the first match,
 * skip/limit windows and descending sorts.
 */
module Seqs {
  import opened Wrappers

  /** The elements of `s` that satisfy `f`, in their original order. */
  function Filter<T(!new)>(s: seq<T>, f: T -> bool): (r: seq<T>)
    ensures |r| <= |s|
    ensures forall x {:trigger x in r} :: x in r <==> x in s && f(x)
    ensures forall x {:trigger multiset(r)[x]} :: multiset(r)[x] == if f(x) then multiset(s)[x] else 0
    decreases |s|
  {
    if |s| == 0 then []
    else
      assert s == [s[0]] + s[1..];
      if f(s[0]) then [s[0]] + Filter(s[1..], f) else Filter(s[1..], f)
  }

  lemma {:induction false} FilterConcat<T(!new)>(a: seq<T>, b: seq<T>, f: T -> bool)
    ensures Filter(a + b, f) == Filter(a, f) + Filter(b, f)
    decreases |a|
  {
    if |a| == 0 {
      assert a + b == b;
    } else {
      var rest := a[1..] + b;
      assert (a + b)[0] == a[0] && (a + b)[1..] == rest;
      FilterConcat(a[1..], b, f);
      var fa, fr, fb := Filter(a[1..], f), Filter(rest, f), Filter(b, f);
      assert fr == fa + fb;
      if f(a[0]) {
        assert Filter(a + b, f) == [a[0]] + fr;
        assert Filter(a, f) == [a[0]] + fa;
        assert [a[0]] + (fa + fb) == ([a[0]] + fa) + fb;
      } else {
        assert Filter(a + b, f) == fr;
        assert Filter(a, f) == fa;
      }
    }
  }

  /** Every element of the filtered sequence comes from `s` and satisfies `f`. */
  lemma FilterMembers<T(!new)>(s: seq<T>, f: T -> bool)
    ensures forall i :: 0 <= i < |Filter(s, f)| ==> Filter(s, f)[i] in s && f(Filter(s, f)[i])
  {
    var r := Filter(s, f);
    forall i | 0 <= i < |r|
      ensures r[i] in s && f(r[i])
    {
      assert r[i] in r;
    }
  }

  /** A query that no element satisfies selects nothing. */
  lemma {:induction false} FilterEmpty<T(!new)>(s: seq<T>, f: T -> bool)
    requires forall j :: 0 <= j < |s| ==> !f(s[j])
    ensures Filter(s, f) == []
    decreases |s|
  {
    if |s| > 0 {
      assert !f(s[0]);
      FilterEmpty(s[1..], f);
    }
  }

  /** Appending one element extends the filtered sequence by that element exactly when it matches. */
  lemma FilterAppend<T(!new)>(s: seq<T>, x: T, f: T -> bool)
    ensures Filter(s + [x], f) == Filter(s, f) + (if f(x) then [x] else [])
  {
    FilterConcat(s, [x], f);
    assert [x][1..] == [];
  }

  /** A sequence is its prefix, the element at `i`, and its suffix. */
  lemma SplitAt<T>(s: seq<T>, i: nat)
    requires i < |s|
    ensures s == s[..i] + [s[i]] + s[i+1..]
  {
  }

  /** Filtering distributes over a sequence split around one element. */
  lemma FilterSplit<T(!new)>(a: seq<T>, x: T, b: seq<T>, f: T -> bool)
    ensures Filter(a + [x] + b, f) == Filter(a, f) + (if f(x) then [x] else []) + Filter(b, f)
  {
    FilterConcat(a + [x], b, f);
    FilterAppend(a, x, f);
  }

  /** Cutting out position `i` removes `s[i]` from the filtered sequence exactly when it matches. */
  lemma FilterRemoveAt<T(!new)>(s: seq<T>, i: nat, f: T -> bool)
    requires i < |s|
    ensures Filter(s, f) == Filter(s[..i], f) + (if f(s[i]) then [s[i]] else []) + Filter(s[i+1..], f)
    ensures Filter(s[..i] + s[i+1..], f) == Filter(s[..i], f) + Filter(s[i+1..], f)
  {
    SplitAt(s, i);
    FilterSplit(s[..i], s[i], s[i+1..], f);
    FilterConcat(s[..i], s[i+1..], f);
  }

  /** Two queries that agree on every element select the same elements. */
  lemma {:induction false} FilterExtensional<T(!new)>(s: seq<T>, f: T -> bool, g: T -> bool)
    requires forall x :: x in s ==> f(x) == g(x)
    ensures Filter(s, f) == Filter(s, g)
    decreases |s|
  {
    if |s| > 0 {
      assert s[0] in s;
      assert forall x :: x in s[1..] ==> x in s;
      FilterExtensional(s[1..], f, g);
    }
  }

  /** The position of the first element satisfying `f`, if any. */
  function FirstIndex<T>(s: seq<T>, f: T -> bool): (r: Option<nat>)
    ensures r.Some? ==> r.value < |s| && f(s[r.value]) && forall j :: 0 <= j < r.value ==> !f(s[j])
    ensures r.None? <==> forall j :: 0 <= j < |s| ==> !f(s[j])
    decreases |s|
  {
    if |s| == 0 then None
    else if f(s[0]) then Some(0)
    else match FirstIndex(s[1..], f)
      case None => None
      case Some(k) => Some(k + 1)
  }

  /** Two sequences that agree position by position on the query have the same first match. */
  lemma FirstIndexAgrees<T>(s: seq<T>, t: seq<T>, f: T -> bool)
    requires |s| == |t| && forall j :: 0 <= j < |s| ==> f(s[j]) == f(t[j])
    ensures FirstIndex(s, f) == FirstIndex(t, f)
  {
  }

  /** The first element satisfying `f` (`findOne`). */
  function First<T>(s: seq<T>, f: T -> bool): (r: Option<T>)
    ensures r.Some? <==> exists x :: x in s && f(x)
    ensures r.Some? ==> r.value in s && f(r.value)
  {
    match FirstIndex(s, f)
    case None => None
    case Some(i) => Some(s[i])
  }

  /** `s` without its first element satisfying `f` (`deleteOne`). */
  function RemoveFirst<T>(s: seq<T>, f: T -> bool): (r: seq<T>)
    ensures FirstIndex(s, f).None? ==> r == s
    ensures FirstIndex(s, f).Some? ==>
      var i := FirstIndex(s, f).value;
      |r| + 1 == |s| && multiset(r) + multiset{s[i]} == multiset(s)
  {
    match FirstIndex(s, f)
    case None => s
    case Some(i) =>
      assert s == s[..i] + [s[i]] + s[i+1..];
      s[..i] + s[i+1..]
  }

  /**
   * The window a cursor returns after `skip(offset)` and `limit(limit)`,
   * where a limit of 0 means "no limit" as in MongoDB.
   */
  function Window<T>(s: seq<T>, offset: nat, limit: nat): (r: seq<T>)
    ensures offset >= |s| ==> r == []
    ensures offset < |s| ==> offset + |r| <= |s| && r == s[offset..offset + |r|]
    ensures limit > 0 ==> |r| <= limit
    ensures offset < |s| && (limit == 0 || offset + limit >= |s|) ==> offset + |r| == |s|
    ensures offset < |s| && limit > 0 && offset + limit < |s| ==> |r| == limit
  {
    if offset >= |s| then []
    else if limit == 0 || offset + limit >= |s| then s[offset..]
    else s[offset..offset + limit]
  }

  /**
   * A window holds every element from the offset on, up to the limit: the
   * element at position `i` of the full list is at position `i - offset` of
   * the window.
   */
  lemma WindowLocates<T>(s: seq<T>, offset: nat, limit: nat, i: nat)
    requires offset <= i < |s|
    requires limit == 0 || i < offset + limit
    ensures i - offset < |Window(s, offset, limit)| && Window(s, offset, limit)[i - offset] == s[i]
  {
  }

  /** `s` is ordered from the largest key to the smallest. */
  ghost predicate NonIncreasing<T>(s: seq<T>, key: T -> int) {
    forall i, j :: 0 <= i < j < |s| ==> key(s[i]) >= key(s[j])
  }

  /** Putting an element in front of a descending sequence whose keys it bounds keeps it descending. */
  lemma ConsNonIncreasing<T>(y: T, t: seq<T>, key: T -> int)
    requires NonIncreasing(t, key)
    requires forall j :: 0 <= j < |t| ==> key(y) >= key(t[j])
    ensures NonIncreasing([y] + t, key)
  {
    var r := [y] + t;
    forall i, j | 0 <= i < j < |r|
      ensures key(r[i]) >= key(r[j])
    {
      assert r[j] == t[j - 1];
      if i > 0 {
        assert r[i] == t[i - 1];
      }
    }
  }

  /** Inserts `x` into the descending `s`, before the first element whose key is not larger. */
  function InsertDesc<T>(x: T, s: seq<T>, key: T -> int): (r: seq<T>)
    requires NonIncreasing(s, key)
    ensures NonIncreasing(r, key)
    ensures multiset(r) == multiset(s) + multiset{x}
    ensures forall y :: y in r ==> y == x || y in s
    decreases |s|
  {
    if |s| == 0 || key(s[0]) <= key(x) then
      ConsNonIncreasing(x, s, key);
      [x] + s
    else
      var tail := s[1..];
      assert s == [s[0]] + tail;
      assert NonIncreasing(tail, key) by {
        forall i, j | 0 <= i < j < |tail|
          ensures key(tail[i]) >= key(tail[j])
        {
          assert tail[i] == s[i + 1] && tail[j] == s[j + 1];
        }
      }
      var rest := InsertDesc(x, tail, key);
      assert forall j :: 0 <= j < |rest| ==> key(s[0]) >= key(rest[j]) by {
        forall j | 0 <= j < |rest|
          ensures key(s[0]) >= key(rest[j])
        {
          assert rest[j] in rest;
        }
      }
      ConsNonIncreasing(s[0], rest, key);
      [s[0]] + rest
  }

  /** A descending sort by `key` that keeps equal keys in their original order. */
  function SortDesc<T>(s: seq<T>, key: T -> int): (r: seq<T>)
    ensures NonIncreasing(r, key)
    ensures multiset(r) == multiset(s)
    ensures |r| == |s|
    decreases |s|
  {
    if |s| == 0 then []
    else
      assert s == [s[0]] + s[1..];
      var r := InsertDesc(s[0], SortDesc(s[1..], key), key);
      assert |r| == |multiset(r)|;
      r
  }

  /** A window holds only elements of the list it is cut from. */
  lemma WindowMembers<T>(s: seq<T>, offset: nat, limit: nat)
    ensures forall x :: x in Window(s, offset, limit) ==> x in s
  {
    var w := Window(s, offset, limit);
    forall x | x in w
      ensures x in s
    {
      var k :| 0 <= k < |w| && w[k] == x;
      assert s[offset + k] == x;
    }
  }

  /** Two sequences that are permutations of each other have the same elements. */
  lemma PermutationMembers<T>(a: seq<T>, b: seq<T>)
    requires multiset(a) == multiset(b)
    ensures forall x :: x in a <==> x in b
  {
    forall x
      ensures x in a <==> x in b
    {
      assert x in a <==> x in multiset(a);
      assert x in b <==> x in multiset(b);
    }
  }

  /** A window of a descending sequence is descending. */
  lemma WindowNonIncreasing<T>(s: seq<T>, offset: nat, limit: nat, key: T -> int)
    requires NonIncreasing(s, key)
    ensures NonIncreasing(Window(s, offset, limit), key)
  {
    var w := Window(s, offset, limit);
    if offset < |s| {
      forall i, j | 0 <= i < j < |w|
        ensures key(w[i]) >= key(w[j])
      {
        assert w[i] == s[offset + i] && w[j] == s[offset + j];
      }
    }
  }
}

=== FILE: users.dfy ===
/**
 * The user endpoints: profile with derived totals, registration, login, and
 * the paged lists of a user's submissions and votes.
 */
module Users {
  import opened Wrappers
  import opened Records
  import Seqs
  import opened Invariants
  import VoteLedger
  import Catalog

  /** A user document as the API returns it: every stored field except the password hash. */
  datatype PublicUser = PublicUser(id: ObjectId, name: string, userId: string, email: string, createdAt: Timestamp)

  function Public(u: User): (r: PublicUser)
    ensures r.id == u.id && r.name == u.name && r.userId == u.userId
    ensures r.email == u.email && r.createdAt == u.createdAt
  {
    PublicUser(u.id, u.name, u.userId, u.email, u.createdAt)
  }

  /** A profile: the public user and the two totals counted from the records. */
  datatype Profile = Profile(user: PublicUser, totalSubmissions: nat, totalVotes: nat)

  /** What registration and login return: a token and the public user. */
  datatype Session = Session(token: string, user: PublicUser)

  /** One page of a listing and the size of the whole listing. */
  datatype Listing<T> = Listing(items: seq<T>, total: nat)

  /** A vote with its product populated (`None` once the product is deleted). */
  datatype VotedEntry = VotedEntry(vote: Vote, product: Option<Product>)

  /**
   * `getUserById`: looks the user up by external id; the totals are counts
   * of the user's products and upvote records, not stored counters.
   */
  function GetUserById(s: Store, id: string): (r: Result<Profile, Failure>)
    ensures id == "" ==> r == Failure(BadRequest("User ID is required"))
    ensures id != "" && FindUserByExternalId(s.users, id).None? ==> r == Failure(NotFound("User not found"))
    ensures r.Success? <==> id != "" && FindUserByExternalId(s.users, id).Some?
    ensures r.Success? ==>
      var u := FindUserByExternalId(s.users, id).value;
      && u in s.users && u.userId == id
      && r.value.user == Public(u)
      && r.value.totalSubmissions == |SubmissionsOf(s.products, u.id)|
      && r.value.totalVotes == |VotesBy(s.votes, u.id)|
  {
    if id == "" then Failure(BadRequest("User ID is required"))
    else
      match FindUserByExternalId(s.users, id)
      case None => Failure(NotFound("User not found"))
      case Some(u) =>
        Success(Profile(Public(u), |SubmissionsOf(s.products, u.id)|, |VotesBy(s.votes, u.id)|))
  }

  /** A toggle by a user moves that user's reported `totalVotes` by exactly one. */
  lemma ToggleMovesTotalVotes(s: Store, id: string, productId: ObjectId, now: Timestamp)
    requires GetUserById(s, id).Success?
    ensures var u := FindUserByExternalId(s.users, id).value;
      var r := VoteLedger.ToggleVote(s, u.id, productId, now);
      && r.0.Success?
      && GetUserById(r.1, id).Success?
      && GetUserById(r.1, id).value.totalVotes == GetUserById(s, id).value.totalVotes + r.0.value.Delta()
  {
    var u := FindUserByExternalId(s.users, id).value;
    assert FindUser(s.users, u.id).Some?;
    VoteLedger.ToggleVoteTallies(s, u.id, productId, now);
  }

  /** A product created by a user adds one to that user's reported `totalSubmissions`. */
  lemma CreateAddsSubmission(
    s: Store, id: string, req: Catalog.CreateRequest,
    logoUrl: string, mediaUrls: seq<string>, newId: ObjectId, now: Timestamp)
    requires GetUserById(s, id).Success?
    requires Catalog.CreateProduct(s, FindUserByExternalId(s.users, id).value.id, req, logoUrl, mediaUrls, newId, now).0.Success?
    ensures var u := FindUserByExternalId(s.users, id).value;
      var s' := Catalog.CreateProduct(s, u.id, req, logoUrl, mediaUrls, newId, now).1;
      GetUserById(s', id).value.totalSubmissions == GetUserById(s, id).value.totalSubmissions + 1
  {
    var u := FindUserByExternalId(s.users, id).value;
    var r := Catalog.CreateProduct(s, u.id, req, logoUrl, mediaUrls, newId, now);
    Seqs.FilterAppend(s.products, r.0.value, SubmittedBy(u.id));
  }

  /**
   * `registerUser`: an email already registered is rejected. Otherwise the
   * new user is saved; saving fails (500) when a required field is empty or
   * a unique index (`_id`, the random `userId`) is already taken.
   */
  function RegisterUser(
    s: Store, name: string, email: string, password: string,
    hash: string -> string, sign: (ObjectId, Timestamp) -> string,
    newId: ObjectId, newUserId: string, now: Timestamp)
    : (r: (Result<Session, Failure>, Store))
    ensures FindUserByEmail(s.users, email).Some? ==> r == (Failure(BadRequest("Email already exists")), s)
    ensures r.0.Failure? ==> r.1 == s
    ensures r.0.Success? <==>
      && FindUserByEmail(s.users, email).None?
      && name != "" && email != "" && hash(password) != "" && newUserId != ""
      && FindUser(s.users, newId).None? && FindUserByExternalId(s.users, newUserId).None?
    ensures r.0.Success? ==>
      && |r.1.users| == |s.users| + 1
      && r.1.users[..|s.users|] == s.users
      && Seqs.Filter(r.1.users, UserWithEmail(email)) == [r.1.users[|s.users|]]
      && r.1.users[|s.users|] == User(newId, name, newUserId, email, hash(password), now)
      && r.0.value.user == Public(r.1.users[|s.users|])
      && r.0.value.token == sign(newId, now)
      && r.1.products == s.products && r.1.votes == s.votes && r.1.comments == s.comments
  {
    if FindUserByEmail(s.users, email).Some? then
      (Failure(BadRequest("Email already exists")), s)
    else
      var user := User(newId, name, newUserId, email, hash(password), now);
      if name == "" || email == "" || user.password == "" || newUserId == ""
         || FindUser(s.users, newId).Some? || FindUserByExternalId(s.users, newUserId).Some? then
        (Failure(ServerError("Registration failed")), s)
      else
        Seqs.FilterEmpty(s.users, UserWithEmail(email));
        Seqs.FilterAppend(s.users, user, UserWithEmail(email));
        (Success(Session(sign(newId, now), Public(user))), s.(users := s.users + [user]))
  }

  /**
   * `loginUser`: looks the user up by email, checks the password against
   * the stored hash, and returns a token bound to that user's id. `sign`
   * receives the issue time because a signed token embeds it.
   */
  function LoginUser(
    s: Store, email: string, password: string,
    matches: (string, string) -> bool, sign: (ObjectId, Timestamp) -> string, now: Timestamp)
    : (r: Result<Session, Failure>)
    ensures FindUserByEmail(s.users, email).None? ==> r == Failure(NotFound("User not found"))
    ensures (FindUserByEmail(s.users, email).Some?
             && !matches(password, FindUserByEmail(s.users, email).value.password)) ==>
      r == Failure(Unauthorized("Invalid credentials"))
    ensures r.Success? <==>
      FindUserByEmail(s.users, email).Some? && matches(password, FindUserByEmail(s.users, email).value.password)
    ensures r.Success? ==>
      var u := FindUserByEmail(s.users, email).value;
      && u in s.users && u.email == email
      && matches(password, u.password)
      && r.value == Session(sign(u.id, now), Public(u))
  {
    match FindUserByEmail(s.users, email)
    case None => Failure(NotFound("User not found"))
    case Some(u) =>
      if !matches(password, u.password) then Failure(Unauthorized("Invalid credentials"))
      else Success(Session(sign(u.id, now), Public(u)))
  }

  /**
   * Registering and then logging in with the same email and password, at
   * any later time, yields the registered user and a token for the new id
   * issued at the login time, provided the password check accepts a
   * password against its own hash.
   */
  lemma RegisterThenLogin(
    s: Store, name: string, email: string, password: string,
    hash: string -> string, sign: (ObjectId, Timestamp) -> string, matches: (string, string) -> bool,
    newId: ObjectId, newUserId: string, now: Timestamp, later: Timestamp)
    requires forall pw :: matches(pw, hash(pw))
    requires RegisterUser(s, name, email, password, hash, sign, newId, newUserId, now).0.Success?
    ensures var r := RegisterUser(s, name, email, password, hash, sign, newId, newUserId, now);
      LoginUser(r.1, email, password, matches, sign, later) == Success(Session(sign(newId, later), r.0.value.user))
  {
    var r := RegisterUser(s, name, email, password, hash, sign, newId, newUserId, now);
    var users := r.1.users;
    var k := |s.users|;
    assert forall j :: 0 <= j < k ==> users[j] == s.users[j] && users[j].email != email;
    assert users[k].email == email;
    var found := Seqs.FirstIndex(users, UserWithEmail(email));
    assert found.Some? && found.value == k;
  }

  /** Registration keeps the user unique indexes and the rest of the store consistent. */
  lemma RegisterPreservesConsistency(
    s: Store, name: string, email: string, password: string,
    hash: string -> string, sign: (ObjectId, Timestamp) -> string,
    newId: ObjectId, newUserId: string, now: Timestamp)
    requires Consistent(s)
    ensures Consistent(RegisterUser(s, name, email, password, hash, sign, newId, newUserId, now).1)
    ensures Settled(s) ==> Settled(RegisterUser(s, name, email, password, hash, sign, newId, newUserId, now).1)
  {
    var r := RegisterUser(s, name, email, password, hash, sign, newId, newUserId, now);
    if r.0.Success? {
      var users := r.1.users;
      var k := |s.users|;
      forall i, j | 0 <= i < j < |users|
        ensures users[i].id != users[j].id && users[i].userId != users[j].userId && users[i].email != users[j].email
      {
        assert users[i] == s.users[i];
        if j < k {
          assert users[j] == s.users[j];
        } else {
          assert !UserWithId(newId)(s.users[i]);
          assert !UserWithExternalId(newUserId)(s.users[i]);
          assert !UserWithEmail(email)(s.users[i]);
        }
      }
    }
  }

  /** Page and page size the two user listings use when the query leaves them out. */
  const DefaultPage: nat := 1
  const DefaultPageSize: nat := 10

  /** How many entries precede page `page` when each page holds `limit`. */
  function PageStart(page: nat, limit: nat): nat
    requires page >= 1
  {
    (page - 1) * limit
  }

  /**
   * `getSubmissionsByUser`: the user's products in store order, page
   * `page` of `limit` each (skipping `(page - 1) * limit`; a limit of 0
   * means no limit), and how many products the user submitted. An absent
   * `page` is 1 and an absent `limit` is 10.
   */
  function GetSubmissionsByUser(s: Store, userId: string, page: Option<nat>, limit: Option<nat>)
    : (r: Result<Listing<Product>, Failure>)
    requires page.GetOr(DefaultPage) >= 1
    ensures FindUserByExternalId(s.users, userId).None? <==> r == Failure(NotFound("User not found"))
    ensures r.Success? <==> FindUserByExternalId(s.users, userId).Some?
    ensures r.Success? && limit.None? ==> |r.value.items| <= DefaultPageSize
    ensures r.Success? && page.None? ==>
      r.value.items <= SubmissionsOf(s.products, FindUserByExternalId(s.users, userId).value.id)
    ensures r.Success? ==>
      var u := FindUserByExternalId(s.users, userId).value;
      var mine := SubmissionsOf(s.products, u.id);
      var pg := page.GetOr(DefaultPage); var lim := limit.GetOr(DefaultPageSize);
      && u.userId == userId
      && r.value.total == |mine|
      && (lim > 0 ==> |r.value.items| <= lim)
      && (forall p :: p in r.value.items ==> p in s.products && p.submittedBy == u.id)
      && r.value.items == Seqs.Window(mine, PageStart(pg, lim), lim)
  {
    var page := page.GetOr(DefaultPage);
    var limit := limit.GetOr(DefaultPageSize);
    match FindUserByExternalId(s.users, userId)
    case None => Failure(NotFound("User not found"))
    case Some(u) =>
      var mine := SubmissionsOf(s.products, u.id);
      var items := Seqs.Window(mine, PageStart(page, limit), limit);
      Seqs.WindowMembers(mine, PageStart(page, limit), limit);
      Success(Listing(items, |mine|))
  }

  /**
   * Paging covers the listing without gaps: page `page` holds exactly the
   * submissions at positions `(page - 1) * limit` up to `page * limit`, so
   * the `i`-th submission is item `i - (page - 1) * limit` of the page
   * whose range contains `i`.
   */
  lemma SubmissionsPaging(s: Store, userId: string, page: nat, limit: nat, i: nat)
    requires limit > 0 && page >= 1
    requires GetSubmissionsByUser(s, userId, Some(page), Some(limit)).Success?
    requires (page - 1) * limit <= i < page * limit
    requires i < GetSubmissionsByUser(s, userId, Some(page), Some(limit)).value.total
    ensures var mine := SubmissionsOf(s.products, FindUserByExternalId(s.users, userId).value.id);
      var items := GetSubmissionsByUser(s, userId, Some(page), Some(limit)).value.items;
      i - (page - 1) * limit < |items| && items[i - (page - 1) * limit] == mine[i]
  {
    var off := (page - 1) * limit;
    assert page * limit == off + limit;
  }

  /** The total is the same whichever page is asked for. */
  lemma SubmissionsTotalIgnoresPage(
    s: Store, userId: string, p1: Option<nat>, l1: Option<nat>, p2: Option<nat>, l2: Option<nat>)
    requires p1.GetOr(DefaultPage) >= 1 && p2.GetOr(DefaultPage) >= 1
    requires GetSubmissionsByUser(s, userId, p1, l1).Success?
    ensures GetSubmissionsByUser(s, userId, p2, l2).Success?
    ensures GetSubmissionsByUser(s, userId, p1, l1).value.total == GetSubmissionsByUser(s, userId, p2, l2).value.total
  {
  }

  /**
   * `getVotedProductsByUser`: the user's upvote records in store order,
   * paged as the submissions are, each with its product populated, and how
   * many upvote records the user has.
   */
  function GetVotedProductsByUser(s: Store, userId: string, page: Option<nat>, limit: Option<nat>)
    : (r: Result<Listing<VotedEntry>, Failure>)
    requires page.GetOr(DefaultPage) >= 1
    ensures FindUserByExternalId(s.users, userId).None? <==> r == Failure(NotFound("User not found"))
    ensures r.Success? <==> FindUserByExternalId(s.users, userId).Some?
    ensures r.Success? && limit.None? ==> |r.value.items| <= DefaultPageSize
    ensures r.Success? ==>
      var u := FindUserByExternalId(s.users, userId).value;
      var pg := page.GetOr(DefaultPage); var lim := limit.GetOr(DefaultPageSize);
      var window := Seqs.Window(VotesBy(s.votes, u.id), PageStart(pg, lim), lim);
      && u.userId == userId
      && r.value.total == |VotesBy(s.votes, u.id)|
      && |r.value.items| == |window|
      && (lim > 0 ==> |r.value.items| <= lim)
      && forall k :: 0 <= k < |r.value.items| ==>
           && r.value.items[k].vote == window[k]
           && r.value.items[k].vote.user == u.id
           && r.value.items[k].product == FindProduct(s.products, window[k].product)
  {
    var page := page.GetOr(DefaultPage);
    var limit := limit.GetOr(DefaultPageSize);
    match FindUserByExternalId(s.users, userId)
    case None => Failure(NotFound("User not found"))
    case Some(u) =>
      var mine := VotesBy(s.votes, u.id);
      var window := Seqs.Window(mine, PageStart(page, limit), limit);
      assert forall k :: 0 <= k < |window| ==> window[k] in mine by {
        forall k | 0 <= k < |window| ensures window[k] in mine {
          assert mine[PageStart(page, limit) + k] == window[k];
        }
      }
      var items := seq(|window|, k requires 0 <= k < |window| =>
        VotedEntry(window[k], FindProduct(s.products, window[k].product)));
      Success(Listing(items, |mine|))
  }

  /** The voted-products listing and the profile report the same number of votes. */
  lemma VotedTotalMatchesProfile(s: Store, userId: string, page: Option<nat>, limit: Option<nat>)
    requires page.GetOr(DefaultPage) >= 1
    requires GetUserById(s, userId).Success?
    ensures GetVotedProductsByUser(s, userId, page, limit).Success?
    ensures GetVotedProductsByUser(s, userId, page, limit).value.total == GetUserById(s, userId).value.totalVotes
  {
  }

  /** Deleting one of a user's products takes one from that user's reported `totalSubmissions`. */
  lemma DeleteRemovesSubmission(s: Store, id: string, productId: ObjectId)
    requires GetUserById(s, id).Success?
    requires Catalog.DeleteProduct(s, FindUserByExternalId(s.users, id).value.id, productId).0.Success?
    ensures var u := FindUserByExternalId(s.users, id).value;
      var s' := Catalog.DeleteProduct(s, u.id, productId).1;
      GetUserById(s', id).value.totalSubmissions + 1 == GetUserById(s, id).value.totalSubmissions
  {
    var u := FindUserByExternalId(s.users, id).value;
    var i := Seqs.FirstIndex(s.products, ProductWithId(productId)).value;
    assert Catalog.DeleteProduct(s, u.id, productId).1.products == s.products[..i] + s.products[i+1..];
    Seqs.FilterRemoveAt(s.products, i, SubmittedBy(u.id));
  }
}

=== FILE: vote_ledger.dfy ===
/**
 * The upvote ledger: `toggleVote` flips whether a user has voted for a
 * product, keeping the upvote records and the product's `upvotes` counter
 * in step.
 */
module VoteLedger {
  import opened Wrappers
  import opened Records
  import Seqs
  import ProductSchema
  import opened Invariants

  datatype VoteOutcome = VoteRemoved | VoteRecorded {
    /** How far the toggle moves every tally it touches. */
    function Delta(): int {
      if VoteRemoved? then -1 else 1
    }
  }

  /**
   * `toggleVote`: the caller (an authenticated user id) must exist; the
   * product is not looked up. An existing vote for the pair is deleted
   * (the first one in store order) and the product's counter decremented;
   * otherwise a vote is inserted and the counter incremented. The `$inc`
   * on the user document changes nothing, as the user schema has no
   * `upvotes` path.
   */
  function ToggleVote(s: Store, caller: ObjectId, productId: ObjectId, now: Timestamp)
    : (r: (Result<VoteOutcome, Failure>, Store))
    ensures FindUser(s.users, caller).None? ==> r == (Failure(NotFound("User not found")), s)
    ensures FindUser(s.users, caller).Some? ==>
      && r.0.Success?
      && (r.0.value == VoteRemoved <==> HasVote(s.votes, caller, productId))
      && r.1.users == s.users
      && r.1.comments == s.comments
      && r.1.products == Inc(s.products, productId, Upvotes, r.0.value.Delta())
    ensures r.0 == Success(VoteRecorded) ==>
      multiset(r.1.votes) == multiset(s.votes) + multiset{Vote(caller, productId, now)}
    ensures r.0 == Success(VoteRemoved) ==>
      && |r.1.votes| + 1 == |s.votes|
      && multiset(r.1.votes) <= multiset(s.votes)
      && |VotesFor(r.1.votes, caller, productId)| + 1 == |VotesFor(s.votes, caller, productId)|
  {
    match FindUser(s.users, caller)
    case None => (Failure(NotFound("User not found")), s)
    case Some(user) =>
      if HasVote(s.votes, user.id, productId) then
        var i := Seqs.FirstIndex(s.votes, VoteFor(user.id, productId)).value;
        Seqs.FilterRemoveAt(s.votes, i, VoteFor(user.id, productId));
        var votes := Seqs.RemoveFirst(s.votes, VoteFor(user.id, productId));
        assert votes == s.votes[..i] + s.votes[i+1..];
        (Success(VoteRemoved),
         s.(votes := votes, products := Inc(s.products, productId, Upvotes, -1)))
      else
        Seqs.FilterAppend(s.votes, Vote(user.id, productId, now), VoteFor(user.id, productId));
        (Success(VoteRecorded),
         s.(votes := s.votes + [Vote(user.id, productId, now)],
            products := Inc(s.products, productId, Upvotes, 1)))
  }

  /** The change a request made to every vote tally, by product, by user and by pair. */
  ghost predicate TalliesMoved(before: seq<Vote>, after: seq<Vote>, user: ObjectId, product: ObjectId, d: int) {
    && (forall q :: |VotesOn(after, q)| == |VotesOn(before, q)| + (if q == product then d else 0))
    && (forall w :: |VotesBy(after, w)| == |VotesBy(before, w)| + (if w == user then d else 0))
    && (forall w, q :: |VotesFor(after, w, q)| ==
          |VotesFor(before, w, q)| + (if w == user && q == product then d else 0))
  }

  /** Deleting the vote at position `i` lowers exactly the tallies that vote is counted in. */
  lemma RemoveAtMovesTallies(votes: seq<Vote>, i: nat)
    requires i < |votes|
    ensures TalliesMoved(votes, votes[..i] + votes[i+1..], votes[i].user, votes[i].product, -1)
  {
    var after := votes[..i] + votes[i+1..];
    forall q
      ensures |VotesOn(after, q)| == |VotesOn(votes, q)| + (if q == votes[i].product then -1 else 0)
    {
      Seqs.FilterRemoveAt(votes, i, VoteOn(q));
    }
    forall w
      ensures |VotesBy(after, w)| == |VotesBy(votes, w)| + (if w == votes[i].user then -1 else 0)
    {
      Seqs.FilterRemoveAt(votes, i, VoteBy(w));
    }
    forall w, q
      ensures |VotesFor(after, w, q)| ==
        |VotesFor(votes, w, q)| + (if w == votes[i].user && q == votes[i].product then -1 else 0)
    {
      Seqs.FilterRemoveAt(votes, i, VoteFor(w, q));
    }
  }

  /** Inserting a vote raises exactly the tallies it is counted in. */
  lemma AppendMovesTallies(votes: seq<Vote>, v: Vote)
    ensures TalliesMoved(votes, votes + [v], v.user, v.product, 1)
  {
    forall q
      ensures |VotesOn(votes + [v], q)| == |VotesOn(votes, q)| + (if q == v.product then 1 else 0)
    {
      Seqs.FilterAppend(votes, v, VoteOn(q));
    }
    forall w
      ensures |VotesBy(votes + [v], w)| == |VotesBy(votes, w)| + (if w == v.user then 1 else 0)
    {
      Seqs.FilterAppend(votes, v, VoteBy(w));
    }
    forall w, q
      ensures |VotesFor(votes + [v], w, q)| ==
        |VotesFor(votes, w, q)| + (if w == v.user && q == v.product then 1 else 0)
    {
      Seqs.FilterAppend(votes, v, VoteFor(w, q));
    }
  }

  /**
   * A successful toggle moves the tally of the product, of the caller and of
   * the pair by exactly one (up when recorded, down when removed), and no
   * other tally.
   */
  lemma ToggleVoteTallies(s: Store, caller: ObjectId, productId: ObjectId, now: Timestamp)
    requires FindUser(s.users, caller).Some?
    ensures var r := ToggleVote(s, caller, productId, now);
      TalliesMoved(s.votes, r.1.votes, caller, productId, r.0.value.Delta())
  {
    var r := ToggleVote(s, caller, productId, now);
    assert FindUser(s.users, caller).value.id == caller;
    if HasVote(s.votes, caller, productId) {
      var i := Seqs.FirstIndex(s.votes, VoteFor(caller, productId)).value;
      assert r.1.votes == s.votes[..i] + s.votes[i+1..];
      RemoveAtMovesTallies(s.votes, i);
    } else {
      assert r.1.votes == s.votes + [Vote(caller, productId, now)];
      AppendMovesTallies(s.votes, Vote(caller, productId, now));
    }
  }

  /** Moving `upvotes` by `d` on the product whose vote tally moved by `d` keeps the counters exact. */
  lemma UpvotesStayExact(before: Store, after: Store, caller: ObjectId, productId: ObjectId, d: int)
    requires UniqueProductIds(before.products) && UpvotesExact(before)
    requires after.products == Inc(before.products, productId, Upvotes, d)
    requires TalliesMoved(before.votes, after.votes, caller, productId, d)
    ensures UpvotesExact(after)
  {
    forall p' | p' in after.products
      ensures p'.upvotes == |VotesOn(after.votes, p'.id)|
    {
      var j :| 0 <= j < |after.products| && after.products[j] == p';
      var p := before.products[j];
      assert p in before.products;
    }
  }

  /** Moving `upvotes` keeps every other field, so the comment counters and the schema still hold. */
  lemma IncUpvotesKeepsComments(before: Store, after: Store, productId: ObjectId, d: int)
    requires UniqueProductIds(before.products)
    requires after.products == Inc(before.products, productId, Upvotes, d)
    requires after.comments == before.comments
    requires forall p :: p in after.products ==> p.upvotes >= 0
    requires CommentsCover(before) && forall p :: p in before.products ==> ProductSchema.Valid(p)
    ensures CommentsCover(after) && forall p :: p in after.products ==> ProductSchema.Valid(p)
    ensures CommentsExact(before) ==> CommentsExact(after)
    ensures UniqueProductIds(after.products)
  {
    forall p' | p' in after.products
      ensures p'.comments >= |CommentsOn(after.comments, p'.id)|
      ensures ProductSchema.Valid(p')
      ensures CommentsExact(before) ==> p'.comments == |CommentsOn(after.comments, p'.id)|
    {
      var j :| 0 <= j < |after.products| && after.products[j] == p';
      var p := before.products[j];
      assert p in before.products;
      assert p' == p.(upvotes := p'.upvotes);
    }
  }

  /**
   * `toggleVote` preserves consistency: afterwards every product's `upvotes`
   * still equals its number of vote records, no pair has two votes, no
   * counter is negative, and the other invariants are untouched.
   */
  lemma ToggleVotePreservesConsistency(s: Store, caller: ObjectId, productId: ObjectId, now: Timestamp)
    requires Consistent(s)
    ensures Consistent(ToggleVote(s, caller, productId, now).1)
    ensures CommentsExact(s) ==> CommentsExact(ToggleVote(s, caller, productId, now).1)
  {
    var r := ToggleVote(s, caller, productId, now);
    if FindUser(s.users, caller).Some? {
      var d := r.0.value.Delta();
      var s' := r.1;
      ToggleVoteTallies(s, caller, productId, now);
      UpvotesStayExact(s, s', caller, productId, d);
      IncUpvotesKeepsComments(s, s', productId, d);
      forall w, q
        ensures |VotesFor(s'.votes, w, q)| <= 1
      {
        if w == caller && q == productId && d == 1 {
          HasVoteCount(s.votes, caller, productId);
        }
      }
    }
  }

  /** Two tally changes in a row add up. */
  lemma TalliesCompose(a: seq<Vote>, b: seq<Vote>, c: seq<Vote>, user: ObjectId, product: ObjectId, d1: int, d2: int)
    requires TalliesMoved(a, b, user, product, d1)
    requires TalliesMoved(b, c, user, product, d2)
    ensures TalliesMoved(a, c, user, product, d1 + d2)
  {
  }

  /** With at most one vote per pair, a toggle always leaves the pair in the opposite state. */
  lemma ToggleFlipsPair(s: Store, caller: ObjectId, productId: ObjectId, now: Timestamp)
    requires OneVotePerPair(s.votes)
    requires FindUser(s.users, caller).Some?
    ensures HasVote(ToggleVote(s, caller, productId, now).1.votes, caller, productId)
      <==> !HasVote(s.votes, caller, productId)
  {
    var s1 := ToggleVote(s, caller, productId, now).1;
    ToggleVoteTallies(s, caller, productId, now);
    HasVoteCount(s.votes, caller, productId);
    HasVoteCount(s1.votes, caller, productId);
    assert |VotesFor(s.votes, caller, productId)| <= 1;
  }

  /** Recording a vote and then removing it gives back the very same records. */
  lemma RecordThenRemove(votes: seq<Vote>, caller: ObjectId, productId: ObjectId, now: Timestamp)
    requires !HasVote(votes, caller, productId)
    ensures Seqs.RemoveFirst(votes + [Vote(caller, productId, now)], VoteFor(caller, productId)) == votes
  {
    var v := Vote(caller, productId, now);
    var f := VoteFor(caller, productId);
    var vs := votes + [v];
    assert forall j :: 0 <= j < |votes| ==> vs[j] == votes[j] && !f(vs[j]);
    assert vs[|votes|] == v && f(v);
    var k := Seqs.FirstIndex(vs, f);
    assert k.Some?;
    assert k.value == |votes|;
    assert vs[..|votes|] == votes;
  }

  /**
   * Toggling the same pair twice restores the products, and restores every
   * vote tally (by product, by user, by pair). When the first toggle
   * recorded the vote, the vote records themselves are restored exactly.
   */
  lemma ToggleTwiceRestores(s: Store, caller: ObjectId, productId: ObjectId, t1: Timestamp, t2: Timestamp)
    requires Consistent(s)
    ensures var s1 := ToggleVote(s, caller, productId, t1).1;
      var s2 := ToggleVote(s1, caller, productId, t2).1;
      && s2.products == s.products
      && s2.users == s.users
      && s2.comments == s.comments
      && TalliesMoved(s.votes, s2.votes, caller, productId, 0)
      && (!HasVote(s.votes, caller, productId) ==> s2.votes == s.votes)
  {
    var r1 := ToggleVote(s, caller, productId, t1);
    var s1 := r1.1;
    var r2 := ToggleVote(s1, caller, productId, t2);
    var s2 := r2.1;
    if FindUser(s.users, caller).Some? {
      var d := r1.0.value.Delta();
      ToggleFlipsPair(s, caller, productId, t1);
      assert r2.0.value.Delta() == -d;
      ToggleVoteTallies(s, caller, productId, t1);
      ToggleVoteTallies(s1, caller, productId, t2);
      TalliesCompose(s.votes, s1.votes, s2.votes, caller, productId, d, -d);
      IncInverse(s.products, productId, Upvotes, d);
      if !HasVote(s.votes, caller, productId) {
        RecordThenRemove(s.votes, caller, productId, t1);
      }
    }
  }
}

=== FILE: wrappers.dfy ===
/** Optional values and request outcomes, used throughout the model. */
module Wrappers {

  /** An optional value: the absence of a document, an absent request field. */
  datatype Option<+T> = None | Some(value: T) {
    function GetOr(default: T): T {
      match this
      case Some(v) => v
      case None => default
    }
  }

  /** The outcome of a request: a value, or an error reply. */
  datatype Result<+R, +E> = Success(value: R) | Failure(error: E)
}
